=== FILE: README.md ===
# Breakout on a 32×32 HUB75 panel — a Dafny model

This project models the core of a Breakout game for a Raspberry Pi Pico that drives a
32×32 RGB LED panel, and proves properties of that model. It covers:

- the panel's framebuffer and its bit-plane scan;
- the game itself: bricks, paddle, ball physics, lives, levels and rendering;
- centred banner text;
- the main loop's keypad dispatch and physics gating;
- the tone sequencer that plays the sound effects;
- the bit-banged serial LCD that shows the score;
- the UART lab in `src/main.c`, which is independent of the game.

Modules, one per file:

| file | module | models |
|---|---|---|
| `prelude.dfy` | `Prelude` | Shared helpers: `Option`, `uint8`, and the C arithmetic the source relies on. This means truncation toward zero, unsigned 32-bit subtraction, and low-bit extraction. |
| `matrix.dfy` | `Matrix` | `Hub75Matrix`: `set_pixel`, `clear`, `set_row_address`. Also `refresh_once`, as a sequence of pin events per row and bit plane. |
| `game.dfy` | `BrickBreaker` | `Brick::hit` and the `BrickBreaker` class: constructor, `set_difficulty`, `init_bricks_for_level`, `reset`, `reset_game`, `advance_level`, paddle moves, `update_physics`, `render`. |
| `text.dfy` | `TextDisplay` | `font_index_for_char`, the centred-text layout, and drawing. |
| `control.dfy` | `ControlLoop` | One iteration of `main`'s loop: keypad dispatch, the paused frame, the 40 ms physics gate, and the joystick clamp. |
| `audio.dfy` | `Audio` | `audio_set_freq_nonblocking`, `audio_stop`, `audio_queue_sequence`, `audio_update`, and the `sfx_*` builders. |
| `score.dfy` | `ScoreLcd` | `lcd_write_raw`, `lcd_send_cmd`, `lcd_print_score`, with a receiver-side decoder. |
| `uart.dfy` | `UartLab` | STEP3 `_read`/`_write`; the STEP4/STEP5 receive interrupt and `_read`; the STEP5 tokenizer and `cmd_gpio`. |

How the model represents the hardware and the environment:

- **Panel.** The framebuffer is a `seq<seq<Rgb>>`. Pin activity is a sequence of events.
- **LCD.** Each call to `lcd_print_score` becomes a `ScoreReport(score, level)` in a game
  transition's output. `ScoreLcd.PrintScore` gives the wire trace for one such report.
- **Floats.** They are `real`. The C `(int)` cast is truncation toward zero (`Prelude.Trunc`).
- **Time.** The millisecond clock, the system clock frequency, keypad characters and the
  joystick's proposed paddle column are all parameters.
- **UART.** Bytes received are an input sequence. Bytes echoed are an output sequence.

Where the code and its own comments disagree, the model follows the code:

- `refresh_once` shows the LOW five bits of each 8-bit channel (planes 4..0), not the top
  five. `Matrix.ScanBrightness` states this.
- `lcd_write_raw` is commented "MSB-first" but sends bit 0 first. `ScoreLcd.ByteBits`
  follows the code.
- The constructor sets difficulty `EASY` but speed 1.0, which is MEDIUM's speed.
  `BrickBreaker.NewGame` keeps that pairing.
- A ball at (13, 27) falling at 1.4 rows per tick does not hit the paddle on the next tick.
  Its bottom row is still 29 and the paddle starts at row 30, so it bounces on the second
  tick. `BrickBreaker.FallingBallBouncesOnSecondTick` states this.
- `src/game_classes.h` is stale against the `.cpp` file. It does not declare `lives`, `game_over`,
  `level_cleared`, `reset_game`, `mark_level_cleared` or `advance_level`. The model follows the `.cpp` file.

## Model

| member | source | states |
|---|---|---|
| `Prelude.Clamp` | src/display_matrix.cpp:460-461 | The result lies in [lo, hi]. It equals v when v is in range, and otherwise the bound v crossed. |
| `Prelude.Trunc` | src/game_classes.cpp:188-191 | `(int)` on a float: the integer nearest zero, within 1 of x and with the same sign. |
| `Prelude.SubU32` | src/display_matrix.cpp:432 | `now - last_physics` on `uint32_t`: the difference modulo 2^32, in [0, 2^32). |
| `Prelude.LowFiveAgree` | src/game_classes.cpp:38-43 | Two channel values with the same low five bits have the same bit at every plane below 5. |
| `Matrix.SetPixel` | src/game_classes.cpp:20-25 | Off-board coordinates change nothing. On the board, exactly cell (x, y) gets the colour and every other cell is kept. |
| `Matrix.Clear` | src/game_classes.cpp:27-29 | Every cell is black. |
| `Matrix.FillRect` | src/game_classes.cpp:259-266 | Each cell inside the rectangle and on the board gets the colour. Every other cell is kept. |
| `Matrix.RowAddressRoundTrip` | src/game_classes.cpp:72-82 | Address lines A..D carry bits 0..3 of the row, and decoding them gives the row back. |
| `Matrix.RowTraceProtocol` | src/game_classes.cpp:35-67 | One row of one plane: OE high, then the address, then 32 data/clock pairs carrying that row's column bits, then latch, OE low for the plane's dwell, and OE high. |
| `Matrix.RowTracePulses` | src/game_classes.cpp:37-67 | Exactly 32 clock pulses per row (the odd positions 3..65). The display is enabled exactly once, after the latch. |
| `Matrix.RefreshOnce` | src/game_classes.cpp:31-70 | 80 row scans, planes 4 down to 0 with rows 0..15 in each. Each scan is that row's trace for that plane. |
| `Matrix.RowScan` | src/game_classes.cpp:35-67 | The loop that emits one row's events produces exactly the row trace. |
| `Matrix.ScanIgnoresHighBits` | src/game_classes.cpp:32-43 | Framebuffers that agree on the low five bits of every channel produce identical scans. |
| `Matrix.ScanBrightness` | src/game_classes.cpp:32-65 | A channel value v is lit for 4·(v mod 32) µs per refresh. Brightness is linear in the low five bits. |
| `Matrix.ShiftedBitsAreFramebufferBits` | src/game_classes.cpp:38-51 | The data event for column col of row r at plane p carries bit p of rows r and r+16, for every channel. |
| `BrickBreaker.Hit` | src/game_classes.cpp:85-88 | The brick is dead afterwards and its position, hits and colour are kept. A dead brick is unchanged. |
| `BrickBreaker.HitIdempotent` | src/game_classes.cpp:85-88 | Hitting a brick twice is the same as hitting it once. |
| `BrickBreaker.LevelLayout` | src/game_classes.cpp:119-136 | Brick (row, col) sits at x = 1 + (2 if the row is odd) + 5·col and y = 1 + 3·row. It is alive with one hit. |
| `BrickBreaker.LevelBricksOnBoard` | src/game_classes.cpp:119-136 | Every brick of a fresh level lies wholly on the panel. |
| `BrickBreaker.LevelBricksDisjoint` | src/game_classes.cpp:119-136 | No cell is covered by two bricks of a fresh level. |
| `BrickBreaker.SpeedOf` | src/game_classes.cpp:108-114 | EASY, MEDIUM and HARD map to speeds 0.5, 1.0 and 1.8. |
| `BrickBreaker.Reset` | src/game_classes.cpp:140-149 | Paddle at 13, ball at (14, 27) with velocity (s, −1.4·s). Score, level, lives, bricks and flags are untouched. |
| `BrickBreaker.SetDifficulty` | src/game_classes.cpp:108-117 | The difficulty and its speed s are set, and the ball is served from (14, 27) with velocity (s, −1.4·s). Score, level, lives, bricks and both flags are kept. |
| `BrickBreaker.HardServe` | src/game_classes.cpp:108-117 | Choosing HARD serves the ball at velocity (1.8, −2.52). |
| `BrickBreaker.InitBricks` | src/game_classes.cpp:119-138 | Only the bricks change: they become the fresh level wall `LevelBricks`, 24 bricks all alive with one hit. One score report (score, level) is sent. |
| `BrickBreaker.InitBricksLaidOut` | src/game_classes.cpp:119-136 | In the wall that is built, brick (row, col) is alive with one hit and green. It sits at x = 1 + (2 if the row is odd) + 5·col and y = 1 + 3·row, wholly on the panel. |
| `BrickBreaker.NewGame` | src/game_classes.cpp:91-106 | Score 0, level 1, 3 lives, all bricks alive, difficulty EASY with speed 1.0. One report (0, 1) is sent. The bricks are the fresh level wall `LevelBricks`. |
| `BrickBreaker.ResetGame` | src/game_classes.cpp:151-160 | Score 0, level 1, 3 lives, both flags cleared, all bricks alive. The difficulty is kept and its speed applied. One report (0, 1) is sent. The bricks are the fresh level wall `LevelBricks`. |
| `BrickBreaker.AdvanceLevel` | src/game_classes.cpp:166-171 | Level + 1, the cleared flag is lowered, all 24 bricks alive. Score, lives and difficulty are kept. One report with the new level is sent. The bricks are the fresh level wall `LevelBricks`. |
| `BrickBreaker.MovePaddleLeft` | src/game_classes.cpp:173-175 | Only the paddle changes: one column left, never below 0. |
| `BrickBreaker.MovePaddleRight` | src/game_classes.cpp:176-178 | Only the paddle changes: one column right, never past column 27. |
| `BrickBreaker.WallStep` | src/game_classes.cpp:181-186 | The moved ball stays within x ∈ [0, 30] and y ≥ 0. Without a wall hit, position and velocity follow the move. Crossing the left wall puts x at 0, crossing the right wall puts x at 30, and crossing the top puts y at 0; each negates that velocity component. |
| `BrickBreaker.PaddleStep` | src/game_classes.cpp:193-202 | With paddle overlap, the ball is placed on row 28 moving up. Its horizontal speed gains 0.15 per column the ball's centre lies off the paddle's centre, capped to [−2, 2], so a speed past a bound becomes exactly that bound. Right of centre pushes it right, left of centre pushes it left. Without overlap, nothing changes. |
| `BrickBreaker.FirstHit` | src/game_classes.cpp:204-217 | Finds the first live brick from index i that the moved ball overlaps, or reports that none does. |
| `BrickBreaker.Land` | src/game_classes.cpp:237-252 | Above the floor, the ball just moves. At the floor, one life is lost. With no life left the game is over; otherwise reset runs. |
| `BrickBreaker.Strike` | src/game_classes.cpp:217-233 | The struck brick dies and the score rises by level·50 with one report. The level is cleared iff no brick is left, and a cleared level keeps the ball where it was. |
| `BrickBreaker.UpdatePhysics` | src/game_classes.cpp:180-253 | The game stays valid and no brick revives. Score and reports stay together: the score rises by level·50 iff one report is sent. Lives fall by at most one, and a paddle overlap costs no life. When the ball reaches the floor and the level is not cleared on that tick, exactly one life is lost. |
| `BrickBreaker.BrickScanKillsFirstStruck` | src/game_classes.cpp:204-235 | At most one brick dies per tick: the first live brick the ball overlaps. A brick dies iff some live brick is overlapped, iff the score rises. |
| `BrickBreaker.FallingBallBouncesOnSecondTick` | src/game_classes.cpp:181-202 | A ball falling at 1.4 from (13, 27) above a centred paddle is still falling after one tick, and after the second it is on row 28 moving up. |
| `BrickBreaker.TopBrick` | src/game_classes.cpp:257-262 | Finds the highest-index live brick that covers a cell, which is the brick drawn last. |
| `BrickBreaker.DrawBricksShowsTopBrick` | src/game_classes.cpp:257-262 | After the brick loop, each cell shows the colour of the last live brick covering it, or is unchanged. |
| `BrickBreaker.Render` | src/game_classes.cpp:255-275 | Each cell is white under the ball's 2×2 square, otherwise blue under the paddle, otherwise its top brick's colour, otherwise black. |
| `TextDisplay.FontIndex` | src/display_matrix.cpp:99-114 | Each supported character gets its glyph index. Any other character gets 0, the blank glyph. |
| `TextDisplay.FontIndexInverse` | src/display_matrix.cpp:99-114 | Looking up the character of glyph i gives i. Only that character maps to a non-blank glyph i. |
| `TextDisplay.PaintGlyph` | src/display_matrix.cpp:296-312 | A glyph's lit pixels get the colour and every other cell is kept. |
| `TextDisplay.PaintLineLights` | src/display_matrix.cpp:296-325 | After painting a line, each cell has the colour iff some glyph of the line lights it, and is unchanged otherwise. |
| `TextDisplay.CentredLayout` | src/display_matrix.cpp:229-295 | One line at width 5 or 4 when it fits 32 columns, otherwise two lines. Two lines split at ⌈len/2⌉ and rejoin to the text. Width 4 is used iff a half exceeds 32 columns at width 5. Every line is centred: its left and right margins differ by at most one column. |
| `TextDisplay.LayoutByLength` | src/display_matrix.cpp:229-268 | Up to 6 characters: one line at width 5. 7–8: one line at width 4. 9–12: two lines at width 5. 13 or more: two lines at width 4. |
| `TextDisplay.DrawCentredText` | src/display_matrix.cpp:270-325 | The frame is the cleared panel with exactly the banner's lit pixels in the given colour. |
| `TextDisplay.ShowCentredText` | src/display_matrix.cpp:119-227 | The frame `show_centered_text` keeps on the panel: exactly the centred banner's pixels in the text colour, everything else black. |
| `ControlLoop.OnKey` | src/display_matrix.cpp:376-403 | While playing, A/B/C set EASY/MEDIUM/HARD with a banner. After game over, B starts a new game. On a cleared level, B starts the next level. Any other key changes nothing. |
| `ControlLoop.BannersFit` | src/display_matrix.cpp:381-421 | Every banner the loop shows fits one line at width 5, and each of its characters has a glyph. |
| `ControlLoop.PausedFrame` | src/display_matrix.cpp:409-422 | After game over the frame is DEAD in red, seven rows lower. On a cleared level it is WIN in the text colour. |
| `ControlLoop.PhysicsStep` | src/display_matrix.cpp:430-466 | Physics runs only while playing and when at least 40 ms have passed, modulo 2^32. The joystick column is clamped into [0, 27] first, and the tick time is recorded. |
| `ControlLoop.Iterate` | src/display_matrix.cpp:371-466 | A tick happens iff the game is playing after the key and 40 ms have passed. A paused game skips physics. Only a command key shows a banner. Without a tick the game is the one the key left; with a tick it is `update_physics` of that game with the paddle column clamped into [0, 27]. |
| `ControlLoop.IterateWithoutKey` | src/display_matrix.cpp:404-466 | With no key, a paused game does not change at all and a running game takes exactly the gated physics step. |
| `Audio.Init` | src/audio.cpp:21-28 | The channel is enabled and the pin switched to PWM output, and the tick restarts. The queue is kept. |
| `Audio.SetFreq` | src/audio.cpp:30-43 | Frequency 0 gives level 0. Otherwise the frequency f is capped at clock/2, and the wrap w ≥ 1 satisfies (w+1)·f ≤ clock < (w+2)·f. The level is half the wrap, a 50% duty cycle. |
| `Audio.Stop` | src/audio.cpp:45-53 | The queue is emptied (len, pos and remaining are 0). A playing channel is disabled and its pin driven low. |
| `Audio.QueueSequence` | src/audio.cpp:56-70 | n ≤ 0 changes nothing. Otherwise min(n, 64) tones are copied, position 0, the first tone's duration is remaining and the tick restarts. The PWM plays the first tone: silent for 0 Hz, otherwise a wrap that divides the clock into periods of that frequency at 50% duty. The invariant 0 ≤ pos ≤ len ≤ 64 holds. |
| `Audio.Update` | src/audio.cpp:72-102 | A no-op when the queue is empty or no time has passed. Within a tone the remainder drops by the elapsed time. At a tone's end the position advances by one and the next duration is shortened by the leftover, floored at 0, and the PWM is tuned to the next tone. After the last tone the queue stops. |
| `Audio.UpdateAdvancesAtMostOne` | src/audio.cpp:83-101 | One update moves the position by at most one tone, or stops the queue. |
| `Audio.UpdateConservesTime` | src/audio.cpp:83-101 | At a tone change, elapsed time plus the new remainder equals the old remainder plus the next tone's duration. |
| `Audio.UpdateSplits` | src/audio.cpp:72-81 | Within one tone, updating at t1 then t2 equals one update at t2. |
| `Audio.GameOverSweep` | src/audio.cpp:120-125 | The sweep has 41 tones: 200 − 4i Hz for 20 ms each. |
| `Audio.WinSweep` | src/audio.cpp:134-139 | The sweep has 18 tones: 200 − 8i Hz for 30 ms each. |
| `Audio.SfxBrickHit` | src/audio.cpp:104-107 | Queues exactly the two brick-hit tones. |
| `Audio.SfxWallBounce` | src/audio.cpp:109-112 | Queues exactly the two wall-bounce tones. |
| `Audio.SfxGameStart` | src/audio.cpp:114-117 | Queues exactly the seven start tones. |
| `Audio.SfxGameOver` | src/audio.cpp:119-127 | Queues all 41 sweep tones, none cut off. |
| `Audio.SfxWin` | src/audio.cpp:129-151 | Queues 25 tones: the start melody, then the 18-tone sweep. Writing the queue directly has the same effect as queueing those tones. |
| `ScoreLcd.WriteRaw` | src/score.cpp:14-28 | Chip select falls first and rises last and nothing in between touches it. There are 40 events per byte. |
| `ScoreLcd.BitsRoundTrip` | src/score.cpp:17-25 | Reading the bits sent LSB-first back as Σ bitᵢ·2ⁱ gives the byte. |
| `ScoreLcd.WriteRawRoundTrip` | src/score.cpp:14-28 | A receiver that samples TX on each rising clock edge receives exactly the bytes written, using 8 clock pulses per byte. |
| `ScoreLcd.SendCmd` | src/score.cpp:31-35 | One chip-select frame, 83 events long, from which the display receives exactly the bytes 0xFE and c. A 2 ms wait follows. |
| `ScoreLcd.CommandsThenData` | src/score.cpp:31-69 | Two commands and a data write decode as three transactions: 0xFE c1, 0xFE c2, and the data bytes. |
| `ScoreLcd.PrintScoreTransactions` | src/score.cpp:51-70 | The display receives clear (0xFE 0x01), first-line address (0xFE 0x80), and the 16 character codes of the line. |
| `ScoreLcd.FitLine` | src/score.cpp:59-68 | The line is exactly 16 characters: the text cut to 16, or padded with spaces. |
| `ScoreLcd.ScoreLine` | src/score.cpp:53-69 | The line sent is 16 ASCII characters: the first 16 of the formatted text. |
| `ScoreLcd.DigitsRoundTrip` | src/score.cpp:53 | Reading the decimal digits printed for n gives back n. |
| `ScoreLcd.SpacePadded` | src/score.cpp:53 | `%5d` yields at least 5 ASCII characters, and for a non-negative value the last one is its units digit. |
| `ScoreLcd.Truncate` | src/score.cpp:53 | `snprintf` into 32 bytes keeps a prefix of the text of at most 31 characters. |
| `ScoreLcd.ScoreUnitsDigitHidden` | src/score.cpp:53-69 | The formatted text is always longer than 16 characters and ends in the score's units digit. The line is its first 16 characters, so that digit is never shown. |
| `ScoreLcd.ScoreFiftyShowsFive` | src/score.cpp:53-69 | Score 50 on level 1 is shown as "Lvl01 Score:   5". |
| `ScoreLcd.IntendedLine` | src/score.cpp:53-69 | For any score up to 99999 and level up to 99, the corrected text `Lvl%02dScore:%5d` is exactly 16 characters and is sent unchanged, with no cut and no padding. |
| `ScoreLcd.IntendedLineRoundTrip` | src/score.cpp:53-69 | The corrected line reads back the level from characters 3–4 and the whole score from 11–15. |
| `UartLab.Step3Read` | src/main.c:57-93 | Length ≤ 0 returns 0 without reading. Otherwise backspaces are echoed as erases and store nothing. The first other byte is echoed and stored, and the call returns 1. With no such byte the call stays blocked. |
| `UartLab.Write` | src/main.c:95-115 | Emits buffer[0..length) in order and returns length. |
| `UartLab.Receive` | src/main.c:156-194 | seridx stays in [0, 32] and a full buffer ignores every byte. A newline writes the terminator, raises the flag and keeps seridx. A backspace erases only when there is text. Any other byte is appended and echoed. |
| `UartLab.BackspaceUndoesTyping` | src/main.c:179-193 | Below the last slot, typing a byte and then a backspace restores the text. |
| `UartLab.TypingAppends` | src/main.c:191-193 | Bytes other than newline and backspace are appended in order while they fit. |
| `UartLab.FullBufferIgnoresAll` | src/main.c:165-168 | Once seridx is 32, no byte changes the state. |
| `UartLab.FullLineIsStuck` | src/main.c:165-177 | After 32 typed bytes, neither a newline nor a backspace has any effect. |
| `UartLab.ReceiveIntended` | src/main.c:156-194 | Corrected handler: one slot is kept for the terminator, and newline and backspace are always acted on. |
| `UartLab.IntendedNeverStuck` | src/main.c:156-194 | With the corrected handler a newline always raises the flag, and typing then backspacing restores the text. |
| `UartLab.LineReadAsWritten` | src/main.c:196-216 | Waits for the flag. Then copies min(seridx, length) bytes, resets seridx and the flag, and returns length. |
| `UartLab.LineReadOverstates` | src/main.c:196-216 | After "hi" and a newline, a 100-byte read copies 2 bytes but returns 100. |
| `UartLab.LineReadIntended` | src/main.c:196-216 | Corrected read: returns exactly the number of bytes copied, at most length and seridx, and they are a prefix of the line. |
| `UartLab.CutAtNewline` | src/main.c:451 | The line is the input up to, and not including, its first newline. |
| `UartLab.Tokens` | src/main.c:454-460 | At most cap tokens (10 in the shell). |
| `UartLab.TokensAreWords` | src/main.c:454-460 | Every token is non-empty and holds no space. |
| `UartLab.TokensKeepEverything` | src/main.c:454-460 | With room for all tokens, their concatenation is exactly the line's non-space characters. |
| `UartLab.TokensOfJoin` | src/main.c:454-460 | Words joined by single spaces tokenize back to exactly those words: tokens end exactly at the spaces. |
| `UartLab.TokensArePrefix` | src/main.c:454-460 | The capped token list is a prefix of the full one. |
| `UartLab.CmdGpio` | src/main.c:343-423 | Pins change only for `out` with 3 arguments and a pin in 0..47, or `set` with 4 arguments, a pin in 0..47 made an output before, and a value of 0 or 1. Those replies happen iff those conditions hold. |
| `UartLab.SetNeedsOut` | src/main.c:390-394 | From the power-on pin table, no `set` succeeds. |
| `UartLab.ShellLine` | src/main.c:440-470 | An empty line is ignored. `gpio` lines go to `cmd_gpio` with the tokens. Anything else is an unknown command. |

## Left out

- GPIO, PWM, ADC and UART register access are left out. Pin writes are trace events or state fields. The 16-bit width of the SDK's PWM wrap and level registers is not part of the source, so `Audio.SetFreq` gives the 32-bit values the code computes.
- Busy waits and the millisecond clock are left out. Dwell times and waits are values in traces, and the current time is a parameter.
- `show_centered_text`'s blocking refresh loop and the blink timer are left out. The model gives the frame drawn, not how long it stays up.
- Keypad scanning and debouncing are left out. A key press is an input character.
- The joystick's calibration and float smoothing are left out. Only the integer clamp before `update_physics` is kept.
- Floating-point rounding is left out. Ball physics uses exact reals, so IEEE single-precision equivalence is not claimed.
- `TextDisplay.CentredLayout` requires at most 62 characters. Longer texts overflow the 32-byte half-line buffers in the source, so their behaviour is undefined.
- `UartLab.Receive` and `UartLab.LineReadAsWritten` are atomic steps that never interleave. In the source the receive handler is an interrupt. It can fire inside `_read` after `newline_seen` is cleared (`src/main.c:203`) and before `seridx` is reset (`src/main.c:213`). A byte arriving there is copied past the line or lost. That interleaving is not modelled.
- `Audio.Update` measures elapsed time as `now - lastTick` on unbounded integers. The source's 32-bit millisecond wrap and signed cast are left out.
- `Audio.SetFreq` requires a clock of at least 2 Hz. The real system clock is far above that, and a smaller one would divide by zero in the source.
- `Audio.Tone` durations and frequencies are unbounded naturals. The source's `uint32_t` fields are never near their limit in the sequences built here.
- `UartLab.CmdGpio` reports which message is printed but not the message text. `printf`/`scanf`/`snprintf` internals are left out: `ScoreLcd` gives the output shape of `%02d` and `%5d`.
- `UartLab.Atoi` does not model overflow past `int`, which is undefined behaviour in C.
- STEP2 (`src/main.c:38-50`) is a stdio demonstration with no logic to model. Only STEP3 is compiled (`src/main.c:16`). The STEP4 and STEP5 blocks are modelled as written, even though they are not built.
- `fgets`'s 100-byte limit and its reading through `_read` are left out. `UartLab.ShellLine` starts from the characters `fgets` returned.

## Findings

Nothing here was executed. Each row is a consequence of the source as written, shown by a
lemma.

| source | as written | input that shows it | evidently intended | confidence | as-written member | corrected member |
|---|---|---|---|---|---|---|
| src/score.cpp:53-69 | `"Lvl%02d Score:%5d"` is at least 17 characters and only the first 16 are sent, so the score's units digit never reaches the display | score 50, level 1: the LCD shows `Lvl01 Score:   5` | a 16-character line with the whole score, e.g. `"Lvl%02dScore:%5d"` | medium, not executed | `ScoreLcd.ScoreFiftyShowsFive` (general case `ScoreLcd.ScoreUnitsDigitHidden`) | `ScoreLcd.IntendedLine`, with `ScoreLcd.IntendedLineRoundTrip` proving that level and score read back |
| src/main.c:165-168 | the full-buffer check comes before the newline and backspace cases, so after 32 typed bytes every key is dropped and `_read` waits forever | 32 letters, then Enter | newline and backspace still handled when the buffer is full, with a slot kept for the terminator | medium, not executed | `UartLab.FullLineIsStuck` | `UartLab.ReceiveIntended`, with `UartLab.IntendedNeverStuck` |
| src/main.c:215 | `_read` returns `length` rather than the number of bytes copied | type `hi`, Enter; a 100-byte read copies 2 bytes and returns 100 | return `to_copy` | high, not executed | `UartLab.LineReadOverstates` (on `UartLab.LineReadAsWritten`) | `UartLab.LineReadIntended` |

=== FILE: audio.dfy ===
/** The non-blocking tone sequencer: a queue of at most 64 (frequency, duration)
    tones played on a PWM pin, advanced by elapsed milliseconds, and the sound
    effects that fill it. The system clock frequency and the current time in
    milliseconds are parameters; PWM and GPIO register writes become fields of the state. */
module Audio {
  import opened Prelude

  /** `seq_buf` holds 64 tones. */
  const QueueCapacity: int := 64

  /** A tone: frequency in Hz (0 is silence) and duration in milliseconds. */
  datatype Tone = Tone(freq: nat, ms: nat)

  /** What drives the audio pin: nothing yet, the PWM slice, or plain GPIO held low. */
  datatype PinMode = Unconfigured | PwmOutput | GpioLow

  /** The PWM slice of the audio pin: enabled flag, counter wrap and channel level. */
  datatype Pwm = Pwm(enabled: bool, wrap: nat, level: nat)

  datatype AudioState = AudioState(
    buf: seq<Tone>,
    len: int, pos: int,
    remaining: nat,
    lastTick: int,
    active: bool,
    pwm: Pwm, pin: PinMode)

  /** `0 <= seq_pos <= seq_len <= 64`; an empty queue has position 0. */
  predicate Valid(a: AudioState)
  {
    && |a.buf| == QueueCapacity
    && 0 <= a.pos <= a.len <= QueueCapacity
    && (a.len == 0 ==> a.pos == 0)
    && (a.active <==> a.pwm.enabled)
    && (a.active ==> a.pin == PwmOutput)
  }

  /** The state before any sound: an idle queue and an unconfigured pin. */
  function Initial(): (a: AudioState)
    ensures Valid(a) && a.len == 0 && !a.active
  {
    AudioState(seq(QueueCapacity, _ => Tone(0, 0)), 0, 0, 0, 0, false, Pwm(false, 0, 0), Unconfigured)
  }

  /** `audio_init`: the pin goes to the PWM slice, the slice is enabled, the tick restarts. */
  function Init(a: AudioState, now: int): (r: AudioState)
    ensures r.active && r.pwm.enabled && r.pin == PwmOutput && r.lastTick == now
    ensures r.buf == a.buf && r.len == a.len && r.pos == a.pos && r.remaining == a.remaining
  {
    a.(pin := PwmOutput, pwm := a.pwm.(enabled := true), active := true, lastTick := now)
  }

  /** `audio_set_freq_nonblocking`. Frequency 0 silences the channel (level 0). Otherwise
      the frequency is capped at half the clock, the counter wraps after clock/freq
      cycles and the level is half the wrap: a square wave of about that frequency. */
  function SetFreq(a: AudioState, freq: nat, clockHz: nat, now: int): (r: AudioState)
    requires Valid(a) && clockHz >= 2
    ensures Valid(r) && r.active
    ensures r.buf == a.buf && r.len == a.len && r.pos == a.pos && r.remaining == a.remaining
    ensures a.active ==> r.lastTick == a.lastTick
    ensures freq == 0 ==> r.pwm.level == 0 && r.pwm.wrap == a.pwm.wrap
    ensures freq > 0 ==>
      var f := Min(freq, clockHz / 2);
      && r.pwm.wrap >= 1
      && (r.pwm.wrap + 1) * f <= clockHz < (r.pwm.wrap + 2) * f
      && 2 * r.pwm.level <= r.pwm.wrap < 2 * r.pwm.level + 2
  {
    var a1 := if !a.active then Init(a, now) else a;
    if freq == 0 then a1.(pwm := a1.pwm.(level := 0))
    else
      var f := if freq > clockHz / 2 then clockHz / 2 else freq;
      DivBounds(clockHz, f);
      var wrap := clockHz / f - 1;
      a1.(pwm := a1.pwm.(wrap := wrap, level := wrap / 2))
  }

  /** The slice plays `freq`: silent (level 0) for 0, otherwise a counter wrap that divides
      the clock into periods of the capped frequency, at a 50% duty cycle. */
  predicate Tuned(p: Pwm, freq: nat, clockHz: nat)
    requires clockHz >= 2
  {
    if freq == 0 then p.level == 0
    else
      var f := Min(freq, clockHz / 2);
      && (p.wrap + 1) * f <= clockHz < (p.wrap + 2) * f
      && 2 * p.level <= p.wrap < 2 * p.level + 2
  }

  /** The quotient q = clock / f satisfies q*f <= clock < (q+1)*f, and q >= 2 when f <= clock/2. */
  lemma DivBounds(clockHz: nat, f: nat)
    requires clockHz >= 2 && 0 < f <= clockHz / 2
    ensures (clockHz / f) * f <= clockHz < (clockHz / f + 1) * f
    ensures clockHz / f >= 2
  {
    var q, r := clockHz / f, clockHz % f;
    assert clockHz == q * f + r && 0 <= r < f;
    assert 2 * f <= clockHz;
  }

  /** `audio_stop`: the PWM is switched off and the pin driven low if it was playing;
      the queue is emptied in any case. */
  function Stop(a: AudioState): (r: AudioState)
    requires |a.buf| == QueueCapacity && (a.active <==> a.pwm.enabled)
    ensures Valid(r)
    ensures r.len == 0 && r.pos == 0 && r.remaining == 0 && !r.active
    ensures r.buf == a.buf && r.lastTick == a.lastTick
    ensures a.active ==> !r.pwm.enabled && r.pin == GpioLow
    ensures !a.active ==> r.pwm == a.pwm && r.pin == a.pin
  {
    var a1 := if a.active then a.(pwm := a.pwm.(enabled := false), pin := GpioLow, active := false) else a;
    a1.(len := 0, pos := 0, remaining := 0)
  }

  /** `audio_queue_sequence`: copies the first min(n, 64) tones into the queue and starts
      the first. A non-positive n changes nothing. */
  function QueueSequence(a: AudioState, tones: seq<Tone>, n: int, clockHz: nat, now: int): (r: AudioState)
    requires Valid(a) && clockHz >= 2 && n <= |tones|
    ensures Valid(r)
    ensures n <= 0 ==> r == a
    ensures n > 0 ==>
      && r.len == Min(n, QueueCapacity) && r.pos == 0
      && r.buf[..r.len] == tones[..r.len] && r.buf[r.len..] == a.buf[r.len..]
      && r.remaining == tones[0].ms && r.lastTick == now && r.active
      && Tuned(r.pwm, tones[0].freq, clockHz)
  {
    if n <= 0 then a
    else
      var count := if n > QueueCapacity then QueueCapacity else n;
      var a1 := a.(buf := tones[..count] + a.buf[count..], len := count, pos := 0, remaining := tones[0].ms);
      SetFreq(a1, tones[0].freq, clockHz, now).(lastTick := now)
  }

  /** `audio_update` at time `now`. The elapsed time is spent on the current tone; when it
      is used up the queue moves to the next tone, whose duration is shortened by the time
      left over (never below 0), or stops after the last tone. */
  function Update(a: AudioState, now: int, clockHz: nat): (r: AudioState)
    requires Valid(a) && clockHz >= 2
    ensures Valid(r)
    ensures a.len == 0 || now - a.lastTick <= 0 ==> r == a
    ensures a.len > 0 && now - a.lastTick > 0 ==> r.lastTick == now && r.buf == a.buf
    ensures a.len > 0 && a.remaining > now - a.lastTick > 0 ==>
      r == a.(lastTick := now, remaining := a.remaining - (now - a.lastTick))
    ensures a.len > 0 && 0 < now - a.lastTick && a.remaining <= now - a.lastTick ==>
      if a.pos + 1 >= a.len then r.len == 0 && r.pos == 0 && r.remaining == 0 && !r.active
      else
        var leftover := (now - a.lastTick) - a.remaining;
        && r.len == a.len && r.pos == a.pos + 1
        && r.remaining == Max(0, a.buf[a.pos + 1].ms - leftover)
        && r.active && Tuned(r.pwm, a.buf[a.pos + 1].freq, clockHz)
  {
    if a.len == 0 then a
    else
      var delta := now - a.lastTick;
      if delta <= 0 then a
      else
        var a1 := a.(lastTick := now);
        if a1.remaining > delta then a1.(remaining := a1.remaining - delta)
        else
          var rem := delta - a1.remaining;
          var pos := a1.pos + 1;
          if pos >= a1.len then Stop(a1.(pos := pos))
          else
            var a2 := SetFreq(a1.(pos := pos), a1.buf[pos].freq, clockHz, now);
            var ms := a1.buf[pos].ms;
            a2.(remaining := if rem > 0 then (if rem >= ms then 0 else ms - rem) else ms)
  }

  /** `seq_pos` never moves by more than one tone per update, and never backwards unless
      the queue stops. */
  lemma UpdateAdvancesAtMostOne(a: AudioState, now: int, clockHz: nat)
    requires Valid(a) && clockHz >= 2
    ensures var r := Update(a, now, clockHz);
      r.pos == a.pos || r.pos == a.pos + 1 || (r.len == 0 && r.pos == 0)
  {
  }

  /** No elapsed time is lost when a tone ends: unless the leftover overruns the next tone,
      the time spent plus the time still to play equals the old remainder plus the next
      tone's duration. */
  lemma UpdateConservesTime(a: AudioState, now: int, clockHz: nat)
    requires Valid(a) && clockHz >= 2 && a.len > 0
    requires 0 < now - a.lastTick && a.remaining <= now - a.lastTick && a.pos + 1 < a.len
    requires (now - a.lastTick) - a.remaining < a.buf[a.pos + 1].ms
    ensures (now - a.lastTick) + Update(a, now, clockHz).remaining == a.remaining + a.buf[a.pos + 1].ms
  {
  }

  /** Within one tone, two updates at t1 and then t2 leave the same state as one update at t2. */
  lemma UpdateSplits(a: AudioState, t1: int, t2: int, clockHz: nat)
    requires Valid(a) && clockHz >= 2 && a.len > 0
    requires a.lastTick < t1 < t2 && a.remaining > t2 - a.lastTick
    ensures Update(Update(a, t1, clockHz), t2, clockHz) == Update(a, t2, clockHz)
  {
  }

  // ---------------------------------------------------------------------------
  // Sound effects

  const BrickHitTones: seq<Tone> := [Tone(70, 70), Tone(20, 60)]
  const WallBounceTones: seq<Tone> := [Tone(150, 50), Tone(80, 50)]
  const GameStartTones: seq<Tone> :=
    [Tone(220, 200), Tone(262, 200), Tone(330, 200), Tone(440, 200), Tone(392, 200), Tone(330, 200), Tone(262, 300)]

  /** The sweep loop of `sfx_game_over`: 200 Hz down to 40 Hz in steps of 4, 20 ms each,
      into a 48-tone array. */
  method GameOverSweep() returns (t: seq<Tone>)
    ensures |t| == 41
    ensures forall i | 0 <= i < |t| :: t[i] == Tone(200 - 4 * i, 20)
    ensures t == GameOverTones()
  {
    t := [];
    var f := 200;
    while f >= 40 && |t| < 48
      invariant |t| <= 41
      invariant f == 200 - 4 * |t|
      invariant forall i | 0 <= i < |t| :: t[i] == Tone(200 - 4 * i, 20)
      decreases f
    {
      t := t + [Tone(f, 20)];
      f := f - 4;
    }
  }

  /** The sweep loop of `sfx_win`: 200 Hz down to 64 Hz in steps of 8, 30 ms each,
      into a 32-tone array. */
  method WinSweep() returns (t: seq<Tone>)
    ensures |t| == 18
    ensures forall i | 0 <= i < |t| :: t[i] == Tone(200 - 8 * i, 30)
    ensures t == WinSweepTones()
  {
    t := [];
    var f := 200;
    while f >= 60 && |t| < 32
      invariant |t| <= 18
      invariant f == 200 - 8 * |t|
      invariant forall i | 0 <= i < |t| :: t[i] == Tone(200 - 8 * i, 30)
      decreases f
    {
      t := t + [Tone(f, 30)];
      f := f - 8;
    }
  }

  /** The tones of the game-over sweep and the victory sweep as closed forms. */
  function GameOverTones(): (t: seq<Tone>)
    ensures |t| == 41 && t[0] == Tone(200, 20) && t[40] == Tone(40, 20)
  {
    seq(41, i requires 0 <= i < 41 => Tone(200 - 4 * i, 20))
  }

  function WinSweepTones(): (t: seq<Tone>)
    ensures |t| == 18 && t[0] == Tone(200, 30) && t[17] == Tone(64, 30)
  {
    seq(18, i requires 0 <= i < 18 => Tone(200 - 8 * i, 30))
  }

  /** `sfx_brick_hit`, `sfx_wall_bounce`, `sfx_game_start`: queue their fixed sequences. */
  function SfxBrickHit(a: AudioState, clockHz: nat, now: int): (r: AudioState)
    requires Valid(a) && clockHz >= 2
    ensures Valid(r) && r.len == 2 && r.buf[..2] == BrickHitTones && r.remaining == 70
  {
    QueueSequence(a, BrickHitTones, |BrickHitTones|, clockHz, now)
  }

  function SfxWallBounce(a: AudioState, clockHz: nat, now: int): (r: AudioState)
    requires Valid(a) && clockHz >= 2
    ensures Valid(r) && r.len == 2 && r.buf[..2] == WallBounceTones && r.remaining == 50
  {
    QueueSequence(a, WallBounceTones, |WallBounceTones|, clockHz, now)
  }

  function SfxGameStart(a: AudioState, clockHz: nat, now: int): (r: AudioState)
    requires Valid(a) && clockHz >= 2
    ensures Valid(r) && r.len == 7 && r.buf[..7] == GameStartTones && r.remaining == 200
  {
    QueueSequence(a, GameStartTones, |GameStartTones|, clockHz, now)
  }

  /** `sfx_game_over`: the 41-tone sweep, which fits the queue whole. */
  method SfxGameOver(a: AudioState, clockHz: nat, now: int) returns (r: AudioState)
    requires Valid(a) && clockHz >= 2
    ensures Valid(r) && r.len == 41 && r.pos == 0 && r.remaining == 20
    ensures forall i | 0 <= i < 41 :: r.buf[i] == Tone(200 - 4 * i, 20)
    ensures r == QueueSequence(a, GameOverTones(), 41, clockHz, now)
  {
    var t := GameOverSweep();
    r := QueueSequence(a, t, |t|, clockHz, now);
    assert forall i | 0 <= i < 41 :: r.buf[i] == r.buf[..41][i];
  }

  /** `sfx_win`: the game-start melody followed by the sweep, written straight into the
      queue. 7 + 18 = 25 tones, within the capacity, so nothing is cut off. */
  method SfxWin(a: AudioState, clockHz: nat, now: int) returns (r: AudioState)
    requires Valid(a) && clockHz >= 2
    ensures Valid(r) && r.len == 25 && r.pos == 0 && r.remaining == 200
    ensures r.buf[..7] == GameStartTones
    ensures forall i | 0 <= i < 18 :: r.buf[7 + i] == Tone(200 - 8 * i, 30)
    ensures r == QueueSequence(a, GameStartTones + WinSweepTones(), 25, clockHz, now)
  {
    var sweep := WinSweep();
    var total := |GameStartTones| + |sweep|;
    if total > QueueCapacity {
      total := QueueCapacity;
    }
    var tones := GameStartTones + sweep;
    var a1 := a.(buf := tones + a.buf[total..], len := total, pos := 0);
    r := a1;
    if r.len > 0 {
      r := r.(remaining := r.buf[0].ms);
      r := SetFreq(r, r.buf[0].freq, clockHz, now);
      r := r.(lastTick := now);
    }
    assert forall i | 0 <= i < 18 :: r.buf[7 + i] == sweep[i];
  }
}

=== FILE: control.dfy ===
/** The decisions of the game's main loop: what a keypad key does in each game
    state, when a physics tick runs, and the paddle clamp applied before it.
    Keypad scanning, the joystick's filtering and all waiting are outside the model:
    a key press arrives as a character, the time as a millisecond counter value,
    and the joystick's proposed paddle column as an integer. */
module ControlLoop {
  import opened Prelude
  import opened BrickBreaker
  import TextDisplay
  import Matrix

  /** `physics_interval_ms`: at most one physics tick per 40 ms. */
  const PhysicsIntervalMs: int := 40

  /** What a key press did: the new game, the score lines sent, and the banner shown, if any. */
  datatype KeyResult = KeyResult(game: Game, reports: seq<ScoreReport>, banner: Option<string>)

  /** The game is running: neither over nor paused on a cleared level. */
  predicate Playing(g: Game)
  {
    !g.gameOver && !g.levelCleared
  }

  /** The keys the loop acts on in state g. */
  predicate IsCommand(g: Game, k: char)
  {
    if Playing(g) then k == 'A' || k == 'B' || k == 'C' else k == 'B'
  }

  /** Keypad dispatch in `main`. While playing, A, B and C choose EASY, MEDIUM and HARD
      (the banner is shown before the change); after a game over B starts a new game;
      on a cleared level B starts the next one (the banner follows the change). */
  function OnKey(g: Game, k: char): (r: KeyResult)
    requires Valid(g)
    ensures Valid(r.game)
    ensures r.banner.Some? <==> IsCommand(g, k)
    ensures !IsCommand(g, k) ==> r.game == g && r.reports == []
    ensures Playing(g) && IsCommand(g, k) ==>
      && r.game.difficulty == (if k == 'A' then Easy else if k == 'B' then Medium else Hard)
      && r.game.speedScale == SpeedOf(r.game.difficulty)
      && r.game.score == g.score && r.game.level == g.level && r.game.lives == g.lives
      && r.game.bricks == g.bricks && Playing(r.game) && r.reports == []
      && r.banner == Some(if k == 'A' then "EASY" else if k == 'B' then "MEDIUM" else "HARD")
    ensures g.gameOver && k == 'B' ==>
      && r.game.score == 0 && r.game.level == 1 && r.game.lives == StartLives && Playing(r.game)
      && r.game.difficulty == g.difficulty && r.banner == Some("READY")
    ensures !g.gameOver && g.levelCleared && k == 'B' ==>
      && r.game.level == g.level + 1 && r.game.score == g.score && r.game.lives == g.lives
      && Playing(r.game) && r.banner == Some("READY")
  {
    if Playing(g) then
      if k == 'A' then KeyResult(SetDifficulty(g, Easy), [], Some("EASY"))
      else if k == 'B' then KeyResult(SetDifficulty(g, Medium), [], Some("MEDIUM"))
      else if k == 'C' then KeyResult(SetDifficulty(g, Hard), [], Some("HARD"))
      else KeyResult(g, [], None)
    else if g.gameOver then
      if k == 'B' then
        var o := ResetGame(g);
        KeyResult(o.game, o.reports, Some("READY"))
      else KeyResult(g, [], None)
    else
      if k == 'B' then
        var o := AdvanceLevel(g);
        KeyResult(o.game, o.reports, Some("READY"))
      else KeyResult(g, [], None)
  }

  /** Every banner the loop shows fits on one line of full 5-column glyphs, and every
      character of it has its own glyph. */
  lemma BannersFit(text: string)
    requires text in ["EASY", "MEDIUM", "HARD", "READY", "DEAD", "WIN"]
    ensures var l := TextDisplay.CentredLayout(text, 0);
      |l.lines| == 1 && l.glyphW == 5
    ensures forall i | 0 <= i < |text| :: text[i] in TextDisplay.Charset && TextDisplay.FontIndex(text[i]) != 0
  {
  }

  const Red := Matrix.Rgb(255, 0, 0)

  /** The frame of a paused game while the blink is on: DEAD in red seven rows low after a
      game over, otherwise WIN in the text colour. */
  function PausedFrame(g: Game): (fb: Matrix.Framebuffer)
    requires !Playing(g)
    ensures Matrix.IsFramebuffer(fb)
    ensures g.gameOver ==> forall yy, xx | Matrix.OnBoard(xx, yy) ::
      fb[yy][xx] == if TextDisplay.BannerPixel(TextDisplay.CentredLayout("DEAD", 7), xx, yy) then Red else Matrix.Black
    ensures !g.gameOver ==> forall yy, xx | Matrix.OnBoard(xx, yy) ::
      fb[yy][xx] == if TextDisplay.BannerPixel(TextDisplay.CentredLayout("WIN", 0), xx, yy)
                    then TextDisplay.TextColour else Matrix.Black
  {
    if g.gameOver then TextDisplay.DrawCentredText("DEAD", Red, 7)
    else TextDisplay.DrawCentredText("WIN", TextDisplay.TextColour, 0)
  }

  /** The loop's persistent state: the game and the time of the last physics tick. */
  datatype LoopState = LoopState(game: Game, lastPhysics: int)

  predicate ValidLoop(s: LoopState)
  {
    Valid(s.game) && 0 <= s.lastPhysics < U32Modulus
  }

  /** A physics tick is due: the game is running and at least 40 ms have passed since
      the last one, measured as an unsigned 32-bit difference so the counter may wrap. */
  predicate PhysicsDue(s: LoopState, now: int)
    requires ValidLoop(s) && 0 <= now < U32Modulus
  {
    Playing(s.game) && SubU32(now, s.lastPhysics) >= PhysicsIntervalMs
  }

  /** One pass of the physics section of the loop: when a tick is due, the joystick's
      column is clamped into [0, WIDTH - paddle_w], then `update_physics` runs. */
  function PhysicsStep(s: LoopState, now: int, joystickX: int): (r: (LoopState, seq<ScoreReport>))
    requires ValidLoop(s) && 0 <= now < U32Modulus
    ensures ValidLoop(r.0)
    ensures !PhysicsDue(s, now) ==> r.0 == s && r.1 == []
    ensures PhysicsDue(s, now) ==>
      && r.0.lastPhysics == now
      && var px := Clamp(joystickX, 0, PaddleMaxX);
         var o := UpdatePhysics(s.game.(paddleX := px));
         r.0.game == o.game && r.1 == o.reports
    ensures PhysicsDue(s, now) ==> r.0.game.paddleX == Clamp(joystickX, 0, PaddleMaxX) || r.0.game.paddleX == 13
  {
    if PhysicsDue(s, now) then
      var maxX := Width - PaddleW;
      var newPx := if joystickX < 0 then 0 else if joystickX > maxX then maxX else joystickX;
      var o := UpdatePhysics(s.game.(paddleX := newPx));
      (LoopState(o.game, now), o.reports)
    else (s, [])
  }

  /** What one iteration of the loop did. */
  datatype Iteration = Iteration(state: LoopState, reports: seq<ScoreReport>, banner: Option<string>, ticked: bool)

  /** One iteration of `main`'s loop after the frame is drawn: the key, if any, is
      dispatched; a paused game skips the rest of the iteration; otherwise a physics
      tick runs when one is due. */
  function Iterate(s: LoopState, key: Option<char>, now: int, joystickX: int): (r: Iteration)
    requires ValidLoop(s) && 0 <= now < U32Modulus
    ensures ValidLoop(r.state)
    ensures r.ticked <==> var k := if key.Some? then OnKey(s.game, key.value).game else s.game;
      Playing(k) && SubU32(now, s.lastPhysics) >= PhysicsIntervalMs
    ensures !r.ticked ==> r.state.lastPhysics == s.lastPhysics
    ensures r.ticked ==> r.state.lastPhysics == now
    ensures key.None? || !IsCommand(s.game, key.value) ==> r.banner == None
    ensures var k := if key.Some? then OnKey(s.game, key.value).game else s.game;
      && (!r.ticked ==> r.state.game == k)
      && (r.ticked ==> r.state.game == UpdatePhysics(k.(paddleX := Clamp(joystickX, 0, PaddleMaxX))).game)
  {
    var afterKey := if key.Some? then OnKey(s.game, key.value) else KeyResult(s.game, [], None);
    var s1 := s.(game := afterKey.game);
    if !Playing(s1.game) then Iteration(s1, afterKey.reports, afterKey.banner, false)
    else
      var (s2, reports) := PhysicsStep(s1, now, joystickX);
      Iteration(s2, afterKey.reports + reports, afterKey.banner, PhysicsDue(s1, now))
  }

  /** Without a key, a paused game stands still across iterations and a running one just
      takes the gated physics step. */
  lemma IterateWithoutKey(s: LoopState, now: int, joystickX: int)
    requires ValidLoop(s) && 0 <= now < U32Modulus
    ensures !Playing(s.game) ==> Iterate(s, None, now, joystickX).state == s
    ensures Playing(s.game) ==> Iterate(s, None, now, joystickX).state == PhysicsStep(s, now, joystickX).0
    ensures Iterate(s, None, now, joystickX).banner == None
  {
  }
}

=== FILE: game.dfy ===
/** The Breakout engine: bricks, paddle and ball on the 32x32 board, the level
    and difficulty transitions, one physics tick and the frame it renders.
    Ball coordinates and velocities are C `float`s in the firmware and reals
    here; the `(int)` casts are truncations toward zero. Every call to
    `lcd_print_score` becomes a `ScoreReport` in the operation's outcome. */
module BrickBreaker {
  import opened Prelude
  import Matrix

  const Width: int := 32
  const Height: int := 32

  const PaddleW: int := 5
  const PaddleH: int := 2
  /** `paddle_y = HEIGHT - paddle_h`, fixed for the life of the game. */
  const PaddleY: int := 30
  /** Left-most paddle column that keeps the whole paddle on the board. */
  const PaddleMaxX: int := 27

  const BrickW: int := 4
  const BrickH: int := 2
  const BrickSpacing: int := 1
  const BrickCols: int := 6
  const BrickRows: int := 4
  const BrickCount: int := 24
  const TopMargin: int := 1

  const StartLives: int := 3
  const PointsPerLevel: int := 50

  const Green := Matrix.Rgb(0, 255, 0)
  const Blue := Matrix.Rgb(0, 0, 255)
  const White := Matrix.Rgb(255, 255, 255)

  datatype Difficulty = Easy | Medium | Hard

  datatype Brick = Brick(x: int, y: int, hits: int, alive: bool, color: Matrix.Rgb)

  datatype Game = Game(
    paddleX: int,
    ballX: real, ballY: real,
    ballVx: real, ballVy: real,
    bricks: seq<Brick>,
    score: int, level: int, lives: int,
    gameOver: bool, levelCleared: bool,
    difficulty: Difficulty, speedScale: real)

  /** One `lcd_print_score(score, level)` call. */
  datatype ScoreReport = ScoreReport(score: int, level: int)

  /** A game state together with the score lines it sent to the LCD, in order. */
  datatype Outcome = Outcome(game: Game, reports: seq<ScoreReport>)

  /** The states every operation keeps: a full brick array, the paddle on the
      board, a positive level and the ball's left edge within [0, 30], top edge non-negative. */
  predicate Valid(g: Game)
  {
    && |g.bricks| == BrickCount
    && 0 <= g.paddleX <= PaddleMaxX
    && g.level >= 1
    && 0.0 <= g.ballX <= (Width - 2) as real
    && 0.0 <= g.ballY
  }

  // ---------------------------------------------------------------------------
  // Bricks

  /** `Brick::hit`: a live brick dies; a dead one is left as it is. */
  function Hit(b: Brick): (r: Brick)
    ensures !r.alive
    ensures r.x == b.x && r.y == b.y && r.hits == b.hits && r.color == b.color
    ensures !b.alive ==> r == b
  {
    if !b.alive then b else b.(alive := false)
  }

  lemma HitIdempotent(b: Brick)
    ensures Hit(Hit(b)) == Hit(b)
  {
  }

  /** `init_bricks_for_level` for grid cell (row, col): odd rows are shifted right by
      half a brick. The multiplications use the literals `brick_w + brick_spacing` = 5
      and `brick_h + brick_spacing` = 3 so that the arithmetic stays linear. */
  function LevelBrick(row: int, col: int): Brick
  {
    var totalBricksWidth := BrickCols * BrickW + (BrickCols - 1) * BrickSpacing;
    var leftMargin := (Width - totalBricksWidth) / 2;
    var rowOffset := if row % 2 == 0 then 0 else BrickW / 2;
    Brick(leftMargin + rowOffset + col * 5, TopMargin + row * 3, 1, true, Green)
  }

  /** The brick array of a fresh level, index `row * brick_cols + col`. */
  function LevelBricks(): (bs: seq<Brick>)
    ensures |bs| == BrickCount
  {
    seq(BrickCount, i requires 0 <= i < BrickCount => LevelBrick(i / 6, i % 6))
  }

  /** Every brick of a fresh level is alive with one hit, at x = 1 + (2 on odd rows) + 5*col
      and y = 1 + 3*row. */
  lemma LevelLayout(row: int, col: int)
    requires 0 <= row < BrickRows && 0 <= col < BrickCols
    ensures 0 <= row * 6 + col < BrickCount
    ensures var b := LevelBricks()[row * 6 + col];
      && b.alive && b.hits == 1 && b.color == Green
      && b.x == 1 + (if row % 2 == 1 then 2 else 0) + 5 * col
      && b.y == 1 + 3 * row
  {
    var i := row * 6 + col;
    assert i / 6 == row && i % 6 == col;
  }

  /** Every brick of a fresh level lies wholly on the board. */
  lemma LevelBricksOnBoard(i: int)
    requires 0 <= i < BrickCount
    ensures var b := LevelBricks()[i];
      0 <= b.x && b.x + BrickW <= Width && 0 <= b.y && b.y + BrickH <= Height
  {
    LevelLayout(i / 6, i % 6);
  }

  /** No two bricks of a fresh level share a cell. */
  lemma LevelBricksDisjoint(i: int, j: int, x: int, y: int)
    requires 0 <= i < BrickCount && 0 <= j < BrickCount && i != j
    requires Matrix.InRect(x, y, LevelBricks()[i].x, LevelBricks()[i].y, BrickW as nat, BrickH as nat)
    ensures !Matrix.InRect(x, y, LevelBricks()[j].x, LevelBricks()[j].y, BrickW as nat, BrickH as nat)
  {
    var ri, ci, rj, cj := i / 6, i % 6, j / 6, j % 6;
    LevelLayout(ri, ci);
    LevelLayout(rj, cj);
    assert i == ri * 6 + ci && j == rj * 6 + cj;
    if ri == rj {
      assert ci != cj;
    } else {
      assert LevelBricks()[i].y == 1 + 3 * ri && LevelBricks()[j].y == 1 + 3 * rj;
    }
  }

  /** Some brick of the array is still alive. */
  predicate AnyAlive(bricks: seq<Brick>)
  {
    exists k | 0 <= k < |bricks| :: bricks[k].alive
  }

  // ---------------------------------------------------------------------------
  // Transitions

  function SpeedOf(d: Difficulty): (s: real)
    ensures s > 0.0
    ensures d == Easy ==> s == 0.5
    ensures d == Medium ==> s == 1.0
    ensures d == Hard ==> s == 1.8
  {
    match d
    case Easy => 0.5
    case Medium => 1.0
    case Hard => 1.8
  }

  /** `reset`: paddle centred, ball on top of it, serving up and to the right at the
      difficulty's speed. Score, level, lives, flags and bricks are untouched. */
  function Reset(g: Game): (r: Game)
    ensures r.paddleX == 13 && r.ballX == 14.0 && r.ballY == 27.0
    ensures r.ballVx == g.speedScale && r.ballVy == -1.4 * g.speedScale
    ensures r.bricks == g.bricks && r.score == g.score && r.level == g.level && r.lives == g.lives
    ensures r.gameOver == g.gameOver && r.levelCleared == g.levelCleared
    ensures r.difficulty == g.difficulty && r.speedScale == g.speedScale
    ensures Valid(g) ==> Valid(r)
  {
    var paddleX := (Width - PaddleW) / 2;
    g.(paddleX := paddleX,
       ballX := (paddleX + (PaddleW - 2) / 2) as real,
       ballY := (PaddleY - 3) as real,
       ballVx := 1.0 * g.speedScale,
       ballVy := -1.4 * g.speedScale)
  }

  /** `set_difficulty`: records the difficulty, sets its speed and serves again. */
  function SetDifficulty(g: Game, d: Difficulty): (r: Game)
    ensures r.difficulty == d && r.speedScale == SpeedOf(d)
    ensures r.paddleX == 13 && r.ballX == 14.0 && r.ballY == 27.0
    ensures r.bricks == g.bricks && r.score == g.score && r.level == g.level && r.lives == g.lives
    ensures r.ballVx == SpeedOf(d) && r.ballVy == -1.4 * SpeedOf(d)
    ensures r.ballVx > 0.0 && r.ballVy < 0.0
    ensures r.gameOver == g.gameOver && r.levelCleared == g.levelCleared
    ensures Valid(g) ==> Valid(r)
  {
    Reset(g.(difficulty := d, speedScale := SpeedOf(d)))
  }

  /** Choosing HARD serves the ball at (1.8, -2.52). */
  lemma HardServe(g: Game)
    ensures SetDifficulty(g, Hard).ballVx == 1.8 && SetDifficulty(g, Hard).ballVy == -2.52
  {
  }

  /** `init_bricks_for_level`: a full wall of live bricks (laid out as `LevelLayout`
      states), announced on the LCD; nothing else changes. */
  function InitBricks(g: Game): (r: Outcome)
    ensures r.game == g.(bricks := r.game.bricks)
    ensures |r.game.bricks| == BrickCount
    ensures forall i | 0 <= i < |r.game.bricks| :: r.game.bricks[i].alive && r.game.bricks[i].hits == 1
    ensures r.game.bricks == LevelBricks()
    ensures r.reports == [ScoreReport(g.score, g.level)]
  {
    Outcome(g.(bricks := LevelBricks()), [ScoreReport(g.score, g.level)])
  }

  /** The wall `init_bricks_for_level` builds: brick (row, col) sits at the layout's
      position, on the panel, alive with one hit. */
  lemma InitBricksLaidOut(g: Game, row: int, col: int)
    requires 0 <= row < BrickRows && 0 <= col < BrickCols
    ensures var bs := InitBricks(g).game.bricks;
      && 0 <= row * 6 + col < |bs|
      && var b := bs[row * 6 + col];
      && b.alive && b.hits == 1 && b.color == Green
      && b.x == 1 + (if row % 2 == 1 then 2 else 0) + 5 * col && b.y == 1 + 3 * row
      && 0 <= b.x && b.x + BrickW <= Width && 0 <= b.y && b.y + BrickH <= Height
  {
    LevelLayout(row, col);
    LevelBricksOnBoard(row * 6 + col);
  }

  /** The `BrickBreaker` constructor. It selects EASY but leaves the speed at 1.0,
      the MEDIUM speed, until `set_difficulty` is called. */
  function NewGame(): (r: Outcome)
    ensures Valid(r.game)
    ensures r.game.score == 0 && r.game.level == 1 && r.game.lives == StartLives
    ensures !r.game.gameOver && !r.game.levelCleared
    ensures r.game.difficulty == Easy && r.game.speedScale == SpeedOf(Medium)
    ensures forall i | 0 <= i < |r.game.bricks| :: r.game.bricks[i].alive
    ensures r.game.bricks == LevelBricks()
    ensures r.reports == [ScoreReport(0, 1)]
  {
    var g := Game(13, 0.0, 0.0, 0.0, 0.0, [], 0, 1, StartLives, false, false, Easy, 1.0);
    var o := InitBricks(g);
    Outcome(Reset(o.game), o.reports)
  }

  /** `reset_game`: score 0, level 1, three lives, both flags cleared, the chosen
      difficulty kept and re-applied, a fresh wall announced as score 0 on level 1. */
  function ResetGame(g: Game): (r: Outcome)
    requires Valid(g)
    ensures Valid(r.game)
    ensures r.game.score == 0 && r.game.level == 1 && r.game.lives == StartLives
    ensures !r.game.gameOver && !r.game.levelCleared
    ensures r.game.difficulty == g.difficulty && r.game.speedScale == SpeedOf(g.difficulty)
    ensures forall i | 0 <= i < |r.game.bricks| :: r.game.bricks[i].alive
    ensures r.game.paddleX == 13 && r.game.ballX == 14.0 && r.game.ballY == 27.0
    ensures r.game.bricks == LevelBricks()
    ensures r.reports == [ScoreReport(0, 1)]
  {
    var g1 := g.(score := 0, level := 1, lives := StartLives, gameOver := false, levelCleared := false);
    var g2 := SetDifficulty(g1, g1.difficulty);
    var o := InitBricks(g2);
    Outcome(Reset(o.game), o.reports)
  }

  /** `advance_level`: the next level with a fresh wall; score and lives carry over. */
  function AdvanceLevel(g: Game): (r: Outcome)
    requires Valid(g)
    ensures Valid(r.game)
    ensures r.game.level == g.level + 1 && !r.game.levelCleared
    ensures r.game.score == g.score && r.game.lives == g.lives && r.game.gameOver == g.gameOver
    ensures r.game.difficulty == g.difficulty && r.game.speedScale == g.speedScale
    ensures |r.game.bricks| == BrickCount
    ensures forall i | 0 <= i < |r.game.bricks| :: r.game.bricks[i].alive
    ensures r.game.bricks == LevelBricks()
    ensures r.reports == [ScoreReport(g.score, g.level + 1)]
  {
    var g1 := g.(levelCleared := false, level := g.level + 1);
    var o := InitBricks(g1);
    Outcome(Reset(o.game), o.reports)
  }

  /** `move_paddle_left`: one column left unless already at the left edge. */
  function MovePaddleLeft(g: Game): (r: Game)
    ensures r == g.(paddleX := r.paddleX)
    ensures g.paddleX > 0 ==> r.paddleX == g.paddleX - 1
    ensures g.paddleX <= 0 ==> r.paddleX == g.paddleX
    ensures Valid(g) ==> Valid(r)
  {
    if g.paddleX > 0 then g.(paddleX := g.paddleX - 1) else g
  }

  /** `move_paddle_right`: one column right unless the paddle would leave the board. */
  function MovePaddleRight(g: Game): (r: Game)
    ensures r == g.(paddleX := r.paddleX)
    ensures g.paddleX + PaddleW < Width ==> r.paddleX == g.paddleX + 1
    ensures g.paddleX + PaddleW >= Width ==> r.paddleX == g.paddleX
    ensures Valid(g) ==> Valid(r)
  {
    if g.paddleX + PaddleW < Width then g.(paddleX := g.paddleX + 1) else g
  }

  // ---------------------------------------------------------------------------
  // Physics

  /** Tentative ball position and velocity during a tick. */
  datatype Motion = Motion(x: real, y: real, vx: real, vy: real)

  /** Move by the velocity, then bounce off the left, right and top walls. */
  function WallStep(x: real, y: real, vx: real, vy: real): (m: Motion)
    ensures 0.0 <= m.x <= (Width - 2) as real && 0.0 <= m.y
    ensures m.vx == vx || m.vx == -vx
    ensures m.vy == vy || m.vy == -vy
    ensures 0.0 <= x + vx && x + vx + 2.0 <= Width as real ==> m.x == x + vx && m.vx == vx
    ensures 0.0 <= y + vy ==> m.y == y + vy && m.vy == vy
    ensures x + vx < 0.0 ==> m.x == 0.0 && m.vx == -vx
    ensures x + vx >= 0.0 && x + vx + 2.0 > Width as real ==> m.x == (Width - 2) as real && m.vx == -vx
    ensures y + vy < 0.0 ==> m.y == 0.0 && m.vy == -vy
  {
    var nx := x + vx;
    var ny := y + vy;
    var (nx1, vx1) := if nx < 0.0 then (0.0, -vx) else (nx, vx);
    var (nx2, vx2) := if nx1 + 2.0 > Width as real then ((Width - 2) as real, -vx1) else (nx1, vx1);
    var (ny1, vy1) := if ny < 0.0 then (0.0, -vy) else (ny, vy);
    Motion(nx2, ny1, vx2, vy1)
  }

  /** The 2x2 ball at (x, y), in whole cells, touches the paddle at column `px`. */
  predicate PaddleOverlap(x: real, y: real, px: int)
  {
    var left := Trunc(x);
    var right := Trunc(x) + 1;
    var top := Trunc(y);
    var bottom := Trunc(y) + 1;
    && bottom >= PaddleY && top <= PaddleY + PaddleH - 1
    && !(right < px || left > px + PaddleW - 1)
  }

  /** Paddle bounce with "English": the ball sits on the paddle, heads up, and its
      horizontal speed moves by 0.15 per column off the paddle's centre, capped at 2. */
  function PaddleStep(m: Motion, px: int): (r: Motion)
    ensures !PaddleOverlap(m.x, m.y, px) ==> r == m
    ensures PaddleOverlap(m.x, m.y, px) ==>
      && r.x == m.x && r.y == (PaddleY - 2) as real
      && r.vy <= 0.0 && (r.vy == m.vy || r.vy == -m.vy)
      && -2.0 <= r.vx <= 2.0
      && (m.vx + 0.15 * ((m.x + 1.0) - (px as real + 2.5)) > 2.0 ==> r.vx == 2.0)
      && (m.vx + 0.15 * ((m.x + 1.0) - (px as real + 2.5)) < -2.0 ==> r.vx == -2.0)
      && var off := (m.x + 1.0) - (px as real + 2.5);
         && (-2.0 <= m.vx + 0.15 * off <= 2.0 ==> r.vx == m.vx + 0.15 * off)
         && (off >= 0.0 && -2.0 <= m.vx <= 2.0 ==> r.vx >= m.vx)
         && (off <= 0.0 && -2.0 <= m.vx <= 2.0 ==> r.vx <= m.vx)
  {
    if PaddleOverlap(m.x, m.y, px) then
      var hitPos := ((m.x + 1.0) - px as real) - (PaddleW as real / 2.0);
      var vx := ClampReal(m.vx + hitPos * 0.15, -2.0, 2.0);
      Motion(m.x, (PaddleY - 2) as real, vx, -AbsReal(m.vy))
    else m
  }

  /** The ball's position and velocity after walls and paddle, before any brick. */
  function Moved(g: Game): Motion
  {
    PaddleStep(WallStep(g.ballX, g.ballY, g.ballVx, g.ballVy), g.paddleX)
  }

  /** The 2x2 ball with top-left corner (x, y) overlaps brick b (open intervals). */
  predicate Overlaps(b: Brick, x: real, y: real)
  {
    && x < b.x as real + BrickW as real && x + 2.0 > b.x as real
    && y < b.y as real + BrickH as real && y + 2.0 > b.y as real
  }

  predicate Struck(bricks: seq<Brick>, k: int, x: real, y: real)
    requires 0 <= k < |bricks|
  {
    bricks[k].alive && Overlaps(bricks[k], x, y)
  }

  /** The brick loop of `update_physics` from index i: the first live brick the ball overlaps. */
  function FirstHit(bricks: seq<Brick>, x: real, y: real, i: nat): (r: Option<nat>)
    requires i <= |bricks|
    ensures r.Some? ==>
      && i <= r.value < |bricks| && Struck(bricks, r.value, x, y)
      && forall j | i <= j < r.value :: !Struck(bricks, j, x, y)
    ensures r.None? ==> forall j | i <= j < |bricks| :: !Struck(bricks, j, x, y)
    decreases |bricks| - i
  {
    if i == |bricks| then None
    else if Struck(bricks, i, x, y) then Some(i)
    else FirstHit(bricks, x, y, i + 1)
  }

  /** The end of a tick: the ball takes its new position; reaching the floor costs a
      life and either ends the game or serves again. */
  function Land(g: Game, x: real, y: real): (r: Game)
    ensures r.bricks == g.bricks && r.score == g.score && r.level == g.level
    ensures r.levelCleared == g.levelCleared && r.difficulty == g.difficulty && r.speedScale == g.speedScale
    ensures y + 2.0 < Height as real ==> r == g.(ballX := x, ballY := y)
    ensures y + 2.0 >= Height as real ==> r.lives == g.lives - 1
    ensures y + 2.0 >= Height as real && r.lives <= 0 ==>
      r == g.(ballX := x, ballY := y, lives := r.lives, gameOver := true)
    ensures y + 2.0 >= Height as real && r.lives > 0 ==>
      r.gameOver == g.gameOver && r.paddleX == 13 && r.ballX == 14.0 && r.ballY == 27.0
  {
    var g1 := g.(ballX := x, ballY := y);
    if y + 2.0 >= Height as real then
      var g2 := g1.(lives := g1.lives - 1);
      if g2.lives <= 0 then g2.(gameOver := true) else Reset(g2)
    else g1
  }

  /** Brick `k` was alive before the tick and is dead after it. */
  predicate Killed(before: seq<Brick>, after: seq<Brick>, k: int)
    requires |before| == |after|
  {
    0 <= k < |before| && before[k].alive && !after[k].alive
  }

  /** The brick loop's hit on live brick k: the brick dies, the score rises by
      level*50 and is sent to the LCD, the ball turns vertically, and either the level
      is cleared with the ball left where it was or the tick ends as usual. */
  function Strike(g: Game, m: Motion, k: nat): (r: Outcome)
    requires Valid(g) && k < |g.bricks| && g.bricks[k].alive
    requires 0.0 <= m.x <= (Width - 2) as real && 0.0 <= m.y
    ensures Valid(r.game)
    ensures r.game.bricks == g.bricks[k := Hit(g.bricks[k])]
    ensures r.game.score == g.score + g.level * 50 && r.reports == [ScoreReport(r.game.score, g.level)]
    ensures r.game.level == g.level && r.game.difficulty == g.difficulty && r.game.speedScale == g.speedScale
    ensures r.game.levelCleared <==> g.levelCleared || !AnyAlive(r.game.bricks)
    ensures !AnyAlive(r.game.bricks) ==>
      r.game.ballX == g.ballX && r.game.ballY == g.ballY && r.game.paddleX == g.paddleX
      && r.game.lives == g.lives && r.game.gameOver == g.gameOver
    ensures AnyAlive(r.game.bricks) ==>
      r.game == Land(g.(bricks := r.game.bricks, score := r.game.score, ballVx := m.vx, ballVy := -m.vy), m.x, m.y)
  {
    var score := g.score + g.level * PointsPerLevel;
    var bricks := g.bricks[k := Hit(g.bricks[k])];
    var g1 := g.(bricks := bricks, score := score, ballVx := m.vx, ballVy := -m.vy);
    if !AnyAlive(bricks) then Outcome(g1.(levelCleared := true), [ScoreReport(score, g.level)])
    else Outcome(Land(g1, m.x, m.y), [ScoreReport(score, g.level)])
  }

  /** `update_physics`: one tick of walls, paddle, bricks and floor. */
  function UpdatePhysics(g: Game): (r: Outcome)
    requires Valid(g)
    ensures Valid(r.game)
    ensures |r.game.bricks| == |g.bricks|
    // At most one brick dies; the score rises by level*50 exactly when the LCD is told.
    ensures forall k | 0 <= k < |g.bricks| :: r.game.bricks[k].alive ==> g.bricks[k].alive
    ensures r.game.score == g.score || r.game.score == g.score + g.level * 50
    ensures r.game.score == g.score <==> r.reports == []
    ensures r.reports != [] ==> r.reports == [ScoreReport(r.game.score, g.level)]
    ensures r.game.level == g.level && r.game.difficulty == g.difficulty
    ensures r.game.speedScale == g.speedScale
    ensures r.game.paddleX == g.paddleX || r.game.paddleX == 13
    // Clearing the last brick pauses the ball where it was.
    ensures r.game.levelCleared <==> g.levelCleared || (r.reports != [] && !AnyAlive(r.game.bricks))
    ensures r.game.levelCleared && !g.levelCleared ==>
      r.game.ballX == g.ballX && r.game.ballY == g.ballY && r.game.lives == g.lives
      && r.game.gameOver == g.gameOver
    // The floor costs exactly one life; the game ends when none are left.
    ensures r.game.lives == g.lives || r.game.lives == g.lives - 1
    ensures r.game.lives == g.lives - 1 ==>
      && Moved(g).y + 2.0 >= Height as real
      && (r.game.lives <= 0 ==> r.game.gameOver && r.game.ballX == Moved(g).x && r.game.ballY == Moved(g).y)
      && (r.game.lives > 0 ==>
            r.game.gameOver == g.gameOver && r.game.paddleX == 13 && r.game.ballX == 14.0 && r.game.ballY == 27.0)
    ensures r.game.lives == g.lives ==> r.game.gameOver == g.gameOver
    ensures (r.reports == [] || AnyAlive(r.game.bricks)) && Moved(g).y + 2.0 >= Height as real ==>
      r.game.lives == g.lives - 1
    // A ball that meets the paddle is never lost on that tick.
    ensures PaddleOverlap(WallStep(g.ballX, g.ballY, g.ballVx, g.ballVy).x,
                          WallStep(g.ballX, g.ballY, g.ballVx, g.ballVy).y, g.paddleX) ==>
      r.game.lives == g.lives
  {
    var m := Moved(g);
    match FirstHit(g.bricks, m.x, m.y, 0)
    case Some(k) => Strike(g, m, k)
    case None =>
      Outcome(Land(g.(ballVx := m.vx, ballVy := m.vy), m.x, m.y), [])
  }

  /** The brick scan of one tick: the bricks that die are exactly the first live brick
      the moved ball overlaps, if any; all others are unchanged; the score rises by
      level*50 exactly when one dies. */
  lemma BrickScanKillsFirstStruck(g: Game)
    requires Valid(g)
    ensures var r := UpdatePhysics(g); var m := Moved(g);
      && (forall k | 0 <= k < |g.bricks| && !Killed(g.bricks, r.game.bricks, k) :: r.game.bricks[k] == g.bricks[k])
      && (forall j, k | Killed(g.bricks, r.game.bricks, j) && Killed(g.bricks, r.game.bricks, k) :: j == k)
      && (forall k | Killed(g.bricks, r.game.bricks, k) ::
            Struck(g.bricks, k, m.x, m.y) && forall j | 0 <= j < k :: !Struck(g.bricks, j, m.x, m.y))
      && ((exists k :: Killed(g.bricks, r.game.bricks, k))
          <==> (exists k | 0 <= k < |g.bricks| :: Struck(g.bricks, k, m.x, m.y)))
      && ((exists k :: Killed(g.bricks, r.game.bricks, k)) <==> r.game.score == g.score + g.level * 50)
  {
    var r := UpdatePhysics(g);
    var m := Moved(g);
    match FirstHit(g.bricks, m.x, m.y, 0)
    case Some(k) =>
      assert r == Strike(g, m, k);
      assert Killed(g.bricks, r.game.bricks, k);
    case None =>
      assert r.game.bricks == g.bricks;
  }

  /** A ball falling straight down at 1.4 cells per tick from (13, 27) onto a paddle at
      column 13 does not touch it on the first tick (its bottom row is then 29, above the
      paddle's row 30) and bounces off it on the second, without losing a life. */
  lemma FallingBallBouncesOnSecondTick(g: Game)
    requires Valid(g) && g.paddleX == 13
    requires g.ballX == 13.0 && g.ballY == 27.0 && g.ballVx == 0.0 && g.ballVy == 1.4
    requires forall k | 0 <= k < |g.bricks| :: g.bricks[k].y + BrickH <= 20
    ensures var g1 := UpdatePhysics(g).game;
      && g1.ballY == 28.4 && g1.ballVy == 1.4 && g1.lives == g.lives
      && UpdatePhysics(g1).game.ballY == 28.0 && UpdatePhysics(g1).game.ballVy == -1.4
      && UpdatePhysics(g1).game.lives == g.lives
  {
    var m := Moved(g);
    assert !PaddleOverlap(13.0, 28.4, 13);
    assert m == Motion(13.0, 28.4, 0.0, 1.4);
    assert FirstHit(g.bricks, m.x, m.y, 0) == None;
    var g1 := UpdatePhysics(g).game;
    assert g1.bricks == g.bricks;
    var m1 := Moved(g1);
    assert PaddleOverlap(13.0, 29.8, 13);
    assert m1.y == 28.0 && m1.vy == -1.4;
    assert FirstHit(g1.bricks, m1.x, m1.y, 0) == None;
  }

  // ---------------------------------------------------------------------------
  // Rendering

  /** Live brick `k` covers cell (x, y). */
  predicate Covers(bricks: seq<Brick>, k: int, x: int, y: int)
    requires 0 <= k < |bricks|
  {
    bricks[k].alive && Matrix.InRect(x, y, bricks[k].x, bricks[k].y, BrickW as nat, BrickH as nat)
  }

  /** The highest-index live brick among the first n that covers cell (x, y): the one
      whose colour `render` leaves there, since later bricks are drawn over earlier ones. */
  function TopBrick(bricks: seq<Brick>, n: nat, x: int, y: int): (r: Option<nat>)
    requires n <= |bricks|
    ensures r.Some? ==>
      && r.value < n && Covers(bricks, r.value, x, y)
      && (forall j | r.value < j < n :: !Covers(bricks, j, x, y))
    ensures r.None? ==> forall j | 0 <= j < n :: !Covers(bricks, j, x, y)
  {
    if n == 0 then None
    else if Covers(bricks, n - 1, x, y) then Some(n - 1)
    else TopBrick(bricks, n - 1, x, y)
  }

  /** The colour the first n bricks leave on cell (x, y) of `fb`. */
  function BrickColour(fb: Matrix.Framebuffer, bricks: seq<Brick>, n: nat, x: int, y: int): Matrix.Rgb
    requires Matrix.IsFramebuffer(fb) && n <= |bricks| && Matrix.OnBoard(x, y)
  {
    match TopBrick(bricks, n, x, y)
    case Some(k) => bricks[k].color
    case None => fb[y][x]
  }

  /** The brick loop of `render`: live bricks 0 .. n-1 painted in index order. */
  function DrawBricks(fb: Matrix.Framebuffer, bricks: seq<Brick>, n: nat): (r: Matrix.Framebuffer)
    requires Matrix.IsFramebuffer(fb) && n <= |bricks|
    ensures Matrix.IsFramebuffer(r)
  {
    if n == 0 then fb
    else
      var prev := DrawBricks(fb, bricks, n - 1);
      if !bricks[n - 1].alive then prev
      else Matrix.FillRect(prev, bricks[n - 1].x, bricks[n - 1].y, BrickW as nat, BrickH as nat, bricks[n - 1].color)
  }

  /** Painting bricks in order leaves each cell the colour of the highest-index live
      brick covering it, or its old colour when none does. */
  lemma {:induction false} DrawBricksShowsTopBrick(fb: Matrix.Framebuffer, bricks: seq<Brick>, n: nat, x: int, y: int)
    requires Matrix.IsFramebuffer(fb) && n <= |bricks| && Matrix.OnBoard(x, y)
    ensures DrawBricks(fb, bricks, n)[y][x] == BrickColour(fb, bricks, n, x, y)
  {
    if n > 0 {
      DrawBricksShowsTopBrick(fb, bricks, n - 1, x, y);
    }
  }

  /** `render`: a cleared frame, the live bricks, the blue paddle, then the white 2x2 ball
      at the truncated ball position. Each cell shows the top-most of these. */
  function Render(g: Game): (fb: Matrix.Framebuffer)
    ensures Matrix.IsFramebuffer(fb)
    ensures forall y, x | Matrix.OnBoard(x, y) ::
      fb[y][x] ==
        if Matrix.InRect(x, y, Trunc(g.ballX), Trunc(g.ballY), 2, 2) then White
        else if Matrix.InRect(x, y, g.paddleX, PaddleY, PaddleW as nat, PaddleH as nat) then Blue
        else BrickColour(Matrix.Clear(), g.bricks, |g.bricks|, x, y)
  {
    var bricks := DrawBricks(Matrix.Clear(), g.bricks, |g.bricks|);
    assert forall y, x | Matrix.OnBoard(x, y) ::
      bricks[y][x] == BrickColour(Matrix.Clear(), g.bricks, |g.bricks|, x, y) by {
      forall y, x | Matrix.OnBoard(x, y)
        ensures bricks[y][x] == BrickColour(Matrix.Clear(), g.bricks, |g.bricks|, x, y)
      {
        DrawBricksShowsTopBrick(Matrix.Clear(), g.bricks, |g.bricks|, x, y);
      }
    }
    var paddle := Matrix.FillRect(bricks, g.paddleX, PaddleY, PaddleW as nat, PaddleH as nat, Blue);
    Matrix.FillRect(paddle, Trunc(g.ballX), Trunc(g.ballY), 2, 2, White)
  }
}

=== FILE: matrix.dfy ===
/** The HUB75 matrix driver: a 32x32 RGB framebuffer, its two mutators, and
    the binary-coded-modulation scan `refresh_once`, modelled as the sequence
    of pin events it produces. GPIO register writes become named events; the
    busy waits become dwell values carried by the events. */
module Matrix {
  import opened Prelude

  const Size: int := 32
  /** Row addresses 0..15 each drive one row of the top half and one of the bottom half. */
  const ScanRows: int := 16
  const BitPlanes: nat := 5
  const DwellScale: nat := 4

  datatype Rgb = Rgb(r: uint8, g: uint8, b: uint8)

  const Black := Rgb(0, 0, 0)

  /** `fb[y][x]`: row-major, as in the firmware's `fb[32][32][3]`. */
  type Framebuffer = seq<seq<Rgb>>

  predicate IsFramebuffer(fb: Framebuffer)
  {
    |fb| == Size && forall y | 0 <= y < Size :: |fb[y]| == Size
  }

  predicate OnBoard(x: int, y: int)
  {
    0 <= x < Size && 0 <= y < Size
  }

  /** `set_pixel`: writes one cell; coordinates off the board are ignored. */
  function SetPixel(fb: Framebuffer, x: int, y: int, c: Rgb): (r: Framebuffer)
    requires IsFramebuffer(fb)
    ensures IsFramebuffer(r)
    ensures !OnBoard(x, y) ==> r == fb
    ensures OnBoard(x, y) ==> r[y][x] == c
    ensures forall yy, xx | OnBoard(xx, yy) && (xx != x || yy != y) :: r[yy][xx] == fb[yy][xx]
  {
    if x < 0 || x >= Size || y < 0 || y >= Size then fb
    else fb[y := fb[y][x := c]]
  }

  /** `clear`: every channel of every cell becomes 0. */
  function Clear(): (r: Framebuffer)
    ensures IsFramebuffer(r)
    ensures forall y, x | OnBoard(x, y) :: r[y][x] == Black
  {
    seq(Size, _ => seq(Size, _ => Black))
  }

  predicate InRect(x: int, y: int, x0: int, y0: int, w: nat, h: nat)
  {
    x0 <= x < x0 + w && y0 <= y < y0 + h
  }

  /** One row of `set_pixel` calls, columns x0 .. x0+w-1. */
  function FillSpan(fb: Framebuffer, x0: int, y: int, w: nat, c: Rgb): (r: Framebuffer)
    requires IsFramebuffer(fb)
    ensures IsFramebuffer(r)
    ensures forall yy, xx | OnBoard(xx, yy) ::
      r[yy][xx] == (if yy == y && x0 <= xx < x0 + w then c else fb[yy][xx])
    decreases w
  {
    if w == 0 then fb else SetPixel(FillSpan(fb, x0, y, w - 1, c), x0 + w - 1, y, c)
  }

  /** The nested `set_pixel` loops that paint a w-by-h rectangle; off-board cells are dropped. */
  function FillRect(fb: Framebuffer, x0: int, y0: int, w: nat, h: nat, c: Rgb): (r: Framebuffer)
    requires IsFramebuffer(fb)
    ensures IsFramebuffer(r)
    ensures forall yy, xx | OnBoard(xx, yy) ::
      r[yy][xx] == (if InRect(xx, yy, x0, y0, w, h) then c else fb[yy][xx])
    decreases h
  {
    if h == 0 then fb else FillSpan(FillRect(fb, x0, y0, w, h - 1, c), x0, y0 + h - 1, w, c)
  }

  // ---------------------------------------------------------------------------
  // Bit-plane scan

  /** The six colour data lines for one column: top half (row) and bottom half (row+16). */
  datatype ColumnBits = ColumnBits(r1: bool, g1: bool, b1: bool, r2: bool, g2: bool, b2: bool)

  /** The row-address lines A, B, C, D. */
  datatype AddressLines = AddressLines(a: bool, b: bool, c: bool, d: bool)

  /** Pin-level events of one scan. `OeHigh` blanks the panel (OE is active low);
      `OeLow` lights it for the given number of microseconds. */
  datatype Event =
    | OeHigh
    | SelectRow(lines: AddressLines)
    | ShiftData(bits: ColumnBits)
    | ClockPulse
    | LatchPulse
    | OeLow(dwellUs: nat)

  function ChannelBit(v: uint8, plane: nat): bool
  {
    Bit(v as nat, plane) == 1
  }

  /** Data lines for column `col` of row address `row` on bit-plane `plane`. */
  function ColumnData(fb: Framebuffer, plane: nat, row: int, col: int): ColumnBits
    requires IsFramebuffer(fb) && 0 <= row < ScanRows && 0 <= col < Size
  {
    var top := fb[row][col];
    var bottom := fb[row + ScanRows][col];
    ColumnBits(ChannelBit(top.r, plane), ChannelBit(top.g, plane), ChannelBit(top.b, plane),
               ChannelBit(bottom.r, plane), ChannelBit(bottom.g, plane), ChannelBit(bottom.b, plane))
  }

  /** `set_row_address`: line A carries bit 0 of the row, B bit 1, C bit 2, D bit 3. */
  function RowAddress(row: nat): AddressLines
  {
    AddressLines(row % 2 == 1, (row / 2) % 2 == 1, (row / 4) % 2 == 1, (row / 8) % 2 == 1)
  }

  /** What the panel's row decoder reads from the address lines. */
  function DecodeAddress(lines: AddressLines): nat
  {
    (if lines.a then 1 else 0) + (if lines.b then 2 else 0)
    + (if lines.c then 4 else 0) + (if lines.d then 8 else 0)
  }

  lemma RowAddressRoundTrip(row: nat)
    requires row < ScanRows
    ensures DecodeAddress(RowAddress(row)) == row
    ensures RowAddress(row).a <==> Bit(row, 0) == 1
    ensures RowAddress(row).b <==> Bit(row, 1) == 1
    ensures RowAddress(row).c <==> Bit(row, 2) == 1
    ensures RowAddress(row).d <==> Bit(row, 3) == 1
  {
    assert Pow2(0) == 1 && Pow2(1) == 2 && Pow2(2) == 4 && Pow2(3) == 8;
  }

  /** Output-enable time of bit-plane `plane`: `(1 << plane) * DWELL_SCALE` microseconds. */
  function Dwell(plane: nat): nat
  {
    Pow2(plane) * DwellScale
  }

  /** Events for one column: data lines set, then one clock pulse. */
  function ShiftColumns(fb: Framebuffer, plane: nat, row: int, n: nat): (t: seq<Event>)
    requires IsFramebuffer(fb) && 0 <= row < ScanRows && n <= Size as nat
    ensures |t| == 2 * n
    ensures forall col | 0 <= col < n ::
      t[2 * col] == ShiftData(ColumnData(fb, plane, row, col)) && t[2 * col + 1] == ClockPulse
  {
    if n == 0 then []
    else ShiftColumns(fb, plane, row, n - 1) + [ShiftData(ColumnData(fb, plane, row, n - 1)), ClockPulse]
  }

  const RowEvents: int := 2 + 2 * Size + 3

  /** One row address of one bit-plane: blank, address, 32 shifted columns, latch, show, blank. */
  function RowTrace(fb: Framebuffer, plane: nat, row: int): (t: seq<Event>)
    requires IsFramebuffer(fb) && 0 <= row < ScanRows
    ensures |t| == RowEvents
  {
    [OeHigh, SelectRow(RowAddress(row))] + ShiftColumns(fb, plane, row, Size)
    + [LatchPulse, OeLow(Dwell(plane)), OeHigh]
  }

  /** The pin protocol of one row: OE high, address, 32 data-then-clock pairs,
      one latch pulse, OE low for the plane's dwell, OE high again. */
  lemma RowTraceProtocol(fb: Framebuffer, plane: nat, row: int)
    requires IsFramebuffer(fb) && 0 <= row < ScanRows
    ensures var t := RowTrace(fb, plane, row);
      && t[0] == OeHigh && t[1] == SelectRow(RowAddress(row))
      && (forall col | 0 <= col < Size ::
            t[2 + 2 * col] == ShiftData(ColumnData(fb, plane, row, col)) && t[3 + 2 * col] == ClockPulse)
      && t[RowEvents - 3] == LatchPulse
      && t[RowEvents - 2] == OeLow(Dwell(plane))
      && t[RowEvents - 1] == OeHigh
  {
    var t := RowTrace(fb, plane, row);
    var cols := ShiftColumns(fb, plane, row, Size);
    forall col | 0 <= col < Size
      ensures t[2 + 2 * col] == ShiftData(ColumnData(fb, plane, row, col)) && t[3 + 2 * col] == ClockPulse
    {
      assert t[2 + 2 * col] == cols[2 * col] && t[3 + 2 * col] == cols[2 * col + 1];
    }
  }

  /** Exactly 32 clock pulses per row, one at each odd position of the data phase,
      and the panel is lit exactly once, after the latch. */
  lemma RowTracePulses(fb: Framebuffer, plane: nat, row: int)
    requires IsFramebuffer(fb) && 0 <= row < ScanRows
    ensures var t := RowTrace(fb, plane, row);
      && (forall i | 0 <= i < RowEvents :: t[i] == ClockPulse <==> 3 <= i < RowEvents - 3 && i % 2 == 1)
      && (forall i | 0 <= i < RowEvents :: t[i].OeLow? <==> i == RowEvents - 2)
  {
    var t := RowTrace(fb, plane, row);
    var cols := ShiftColumns(fb, plane, row, Size);
    forall i | 2 <= i < RowEvents - 3
      ensures t[i] == ClockPulse <==> i % 2 == 1
      ensures !t[i].OeLow?
    {
      var col := (i - 2) / 2;
      assert t[i] == cols[i - 2];
      assert i == 2 + 2 * col || i == 3 + 2 * col;
    }
  }

  /** The k-th bit-plane shown by a scan: planes go from BITPLANES-1 down to 0. */
  function PlaneAt(k: nat): nat
    requires k < BitPlanes
  {
    BitPlanes - 1 - k
  }

  /** Row scans in one `refresh_once`: BITPLANES * 16. */
  const ScanSteps: nat := 80

  /** Position of plane-index k, row address `row` in a scan (written with the
      literal 16 so that the arithmetic stays linear). */
  function ScanIndex(k: int, row: int): int
  {
    k * 16 + row
  }

  /** `refresh_once`: the full scan as its 80 row scans, plane-major then
      row-major; the pin trace is their concatenation in this order. The k-th
      pass of the outer loop shows plane BITPLANES-1-k. */
  method RefreshOnce(fb: Framebuffer) returns (scan: seq<seq<Event>>)
    requires IsFramebuffer(fb)
    ensures |scan| == ScanSteps
    ensures forall k, row | 0 <= k < BitPlanes && 0 <= row < ScanRows ::
      scan[ScanIndex(k, row)] == RowTrace(fb, PlaneAt(k), row)
  {
    scan := [];
    var k := 0;
    while k < BitPlanes
      invariant 0 <= k <= BitPlanes
      invariant |scan| == k * 16
      invariant forall k', row | 0 <= k' < k && 0 <= row < ScanRows ::
        scan[ScanIndex(k', row)] == RowTrace(fb, PlaneAt(k'), row)
    {
      var plane := PlaneAt(k);
      var row := 0;
      while row < ScanRows
        invariant 0 <= row <= ScanRows
        invariant |scan| == k * 16 + row
        invariant forall k', r | 0 <= k' < k && 0 <= r < ScanRows ::
          scan[ScanIndex(k', r)] == RowTrace(fb, PlaneAt(k'), r)
        invariant forall r | 0 <= r < row :: scan[ScanIndex(k, r)] == RowTrace(fb, plane, r)
      {
        var events := RowScan(fb, plane, row);
        scan := scan + [events];
        row := row + 1;
      }
      k := k + 1;
    }
  }

  /** The body of the row loop of `refresh_once`, written as the firmware's column loop. */
  method RowScan(fb: Framebuffer, plane: nat, row: int) returns (events: seq<Event>)
    requires IsFramebuffer(fb) && 0 <= row < ScanRows
    ensures events == RowTrace(fb, plane, row)
  {
    events := [OeHigh, SelectRow(RowAddress(row))];
    var col := 0;
    while col < Size
      invariant 0 <= col <= Size
      invariant events == [OeHigh, SelectRow(RowAddress(row))] + ShiftColumns(fb, plane, row, col)
    {
      events := events + [ShiftData(ColumnData(fb, plane, row, col)), ClockPulse];
      col := col + 1;
    }
    events := events + [LatchPulse, OeLow(Dwell(plane)), OeHigh];
  }

  // ---------------------------------------------------------------------------
  // What the scan shows

  lemma {:induction false} ShiftColumnsAgree(fb1: Framebuffer, fb2: Framebuffer, plane: nat, row: int, n: nat)
    requires IsFramebuffer(fb1) && IsFramebuffer(fb2) && 0 <= row < ScanRows && n <= Size as nat
    requires forall col | 0 <= col < n :: ColumnData(fb1, plane, row, col) == ColumnData(fb2, plane, row, col)
    ensures ShiftColumns(fb1, plane, row, n) == ShiftColumns(fb2, plane, row, n)
  {
    if n > 0 {
      ShiftColumnsAgree(fb1, fb2, plane, row, n - 1);
    }
  }

  /** Bits above the low five never reach the panel: two framebuffers that agree
      on every channel modulo 32 produce identical row traces for every plane shown. */
  lemma ScanIgnoresHighBits(fb1: Framebuffer, fb2: Framebuffer, k: nat, row: int)
    requires IsFramebuffer(fb1) && IsFramebuffer(fb2)
    requires k < BitPlanes && 0 <= row < ScanRows
    requires forall y, x | OnBoard(x, y) ::
      fb1[y][x].r as int % 32 == fb2[y][x].r as int % 32
      && fb1[y][x].g as int % 32 == fb2[y][x].g as int % 32
      && fb1[y][x].b as int % 32 == fb2[y][x].b as int % 32
    ensures RowTrace(fb1, PlaneAt(k), row) == RowTrace(fb2, PlaneAt(k), row)
  {
    var p := PlaneAt(k);
    forall col | 0 <= col < Size
      ensures ColumnData(fb1, p, row, col) == ColumnData(fb2, p, row, col)
    {
      var a, b := fb1[row][col], fb2[row][col];
      var c, d := fb1[row + ScanRows][col], fb2[row + ScanRows][col];
      assert OnBoard(col, row) && OnBoard(col, row + ScanRows);
      LowFiveAgree(a.r as nat, b.r as nat, p);
      LowFiveAgree(a.g as nat, b.g as nat, p);
      LowFiveAgree(a.b as nat, b.b as nat, p);
      LowFiveAgree(c.r as nat, d.r as nat, p);
      LowFiveAgree(c.g as nat, d.g as nat, p);
      LowFiveAgree(c.b as nat, d.b as nat, p);
    }
    ShiftColumnsAgree(fb1, fb2, p, row, Size);
  }

  /** Output-enable time a channel value earns across the planes k .. BITPLANES-1 of one scan. */
  function LitTime(v: uint8, k: nat): nat
    requires k <= BitPlanes
    decreases BitPlanes - k
  {
    if k == BitPlanes then 0
    else (if ChannelBit(v, PlaneAt(k)) then Dwell(PlaneAt(k)) else 0) + LitTime(v, k + 1)
  }

  /** Binary-coded modulation: over one scan a channel is lit for a time proportional
      to its low five bits, DWELL_SCALE microseconds per unit. */
  lemma ScanBrightness(v: uint8)
    ensures LitTime(v, 0) == DwellScale * ((v as int) % 32)
  {
    var n := v as nat;
    assert Pow2(0) == 1 && Pow2(1) == 2 && Pow2(2) == 4 && Pow2(3) == 8 && Pow2(4) == 16;
    assert LitTime(v, 5) == 0;
    assert LitTime(v, 4) == 4 * Bit(n, 0);
    assert LitTime(v, 3) == 8 * Bit(n, 1) + LitTime(v, 4);
    assert LitTime(v, 2) == 16 * Bit(n, 2) + LitTime(v, 3);
    assert LitTime(v, 1) == 32 * Bit(n, 3) + LitTime(v, 2);
    assert LitTime(v, 0) == 64 * Bit(n, 4) + LitTime(v, 1);
    LowBitDigits(n);
  }

  /** The bit each data line carries is the one the scan reads off the trace. */
  lemma ShiftedBitsAreFramebufferBits(fb: Framebuffer, k: nat, row: int, col: int)
    requires IsFramebuffer(fb) && k < BitPlanes && 0 <= row < ScanRows && 0 <= col < Size
    ensures var e := RowTrace(fb, PlaneAt(k), row)[2 + 2 * col];
      && e.ShiftData?
      && (e.bits.r1 <==> Bit(fb[row][col].r as nat, PlaneAt(k)) == 1)
      && (e.bits.g1 <==> Bit(fb[row][col].g as nat, PlaneAt(k)) == 1)
      && (e.bits.b1 <==> Bit(fb[row][col].b as nat, PlaneAt(k)) == 1)
      && (e.bits.r2 <==> Bit(fb[row + ScanRows][col].r as nat, PlaneAt(k)) == 1)
      && (e.bits.g2 <==> Bit(fb[row + ScanRows][col].g as nat, PlaneAt(k)) == 1)
      && (e.bits.b2 <==> Bit(fb[row + ScanRows][col].b as nat, PlaneAt(k)) == 1)
  {
    RowTraceProtocol(fb, PlaneAt(k), row);
  }
}

=== FILE: prelude.dfy ===
/** Small shared vocabulary: optional values, bytes, powers of two and the
    C conversions (truncating casts and divisions) the firmware relies on. */
module Prelude {

  datatype Option<+T> = None | Some(value: T)

  /** An unsigned 8-bit value (C `uint8_t`). */
  newtype uint8 = x: int | 0 <= x < 256

  const U32Modulus: int := 0x1_0000_0000

  function Pow2(n: nat): (r: nat)
    ensures r >= 1
  {
    if n == 0 then 1 else 2 * Pow2(n - 1)
  }

  /** Bit `p` of a non-negative value: C `(v >> p) & 1`. */
  function Bit(v: nat, p: nat): nat
  {
    (v / Pow2(p)) % 2
  }

  function Min(a: int, b: int): int
  {
    if a <= b then a else b
  }

  function Max(a: int, b: int): int
  {
    if a <= b then b else a
  }

  /** Clamp an integer into [lo, hi], lower bound checked first as the firmware does. */
  function Clamp(v: int, lo: int, hi: int): (r: int)
    requires lo <= hi
    ensures lo <= r <= hi
    ensures lo <= v <= hi ==> r == v
    ensures v < lo ==> r == lo
    ensures v > hi ==> r == hi
  {
    if v < lo then lo else if v > hi then hi else v
  }

  function ClampReal(v: real, lo: real, hi: real): (r: real)
    requires lo <= hi
    ensures lo <= r <= hi
    ensures lo <= v <= hi ==> r == v
    ensures v < lo ==> r == lo
    ensures v > hi ==> r == hi
  {
    if v > hi then hi else if v < lo then lo else v
  }

  function AbsReal(v: real): (r: real)
    ensures r >= 0.0 && (r == v || r == -v)
  {
    if v < 0.0 then -v else v
  }

  /** C conversion of a float to `int`: truncation toward zero. */
  function Trunc(x: real): (r: int)
    ensures x >= 0.0 ==> r as real <= x < r as real + 1.0
    ensures x < 0.0 ==> r as real - 1.0 < x <= r as real
  {
    if x >= 0.0 then x.Floor else -((-x).Floor)
  }

  /** C integer division, which truncates toward zero (Dafny's `/` is Euclidean). */
  function CDiv(a: int, b: int): (q: int)
    requires b > 0
    ensures a >= 0 ==> q == a / b
    ensures a < 0 ==> q == -((-a) / b)
  {
    if a >= 0 then a / b else -((-a) / b)
  }

  /** Unsigned 32-bit subtraction `a - b` of two `uint32_t` values. */
  function SubU32(a: int, b: int): (r: int)
    requires 0 <= a < U32Modulus && 0 <= b < U32Modulus
    ensures 0 <= r < U32Modulus
    ensures a >= b ==> r == a - b
    ensures a < b ==> r == a - b + U32Modulus
  {
    (a - b) % U32Modulus
  }

  /** The low five bits of n, one binary digit at a time. */
  lemma LowBitDigits(n: nat)
    ensures n % 32 == 16 * ((n / 16) % 2) + n % 16
    ensures n % 16 == 8 * ((n / 8) % 2) + n % 8
    ensures n % 8 == 4 * ((n / 4) % 2) + n % 4
    ensures n % 4 == 2 * ((n / 2) % 2) + n % 2
  {
    Digit16(n);
    Digit8(n);
    Digit4(n);
    Digit2(n);
  }

  lemma Digit16(n: nat)
    ensures n % 32 == 16 * ((n / 16) % 2) + n % 16
  {
    assert n == 32 * (n / 32) + n % 32;
    assert n / 16 == 2 * (n / 32) + (n % 32) / 16;
  }

  lemma Digit8(n: nat)
    ensures n % 16 == 8 * ((n / 8) % 2) + n % 8
  {
    assert n / 8 == 2 * (n / 16) + (n % 16) / 8;
  }

  lemma Digit4(n: nat)
    ensures n % 8 == 4 * ((n / 4) % 2) + n % 4
  {
    assert n / 4 == 2 * (n / 8) + (n % 8) / 4;
  }

  lemma Digit2(n: nat)
    ensures n % 4 == 2 * ((n / 2) % 2) + n % 2
  {
    assert n / 2 == 2 * (n / 4) + (n % 4) / 2;
  }

  /** Bits 0 through 4 of a value are those of its remainder modulo 32. */
  lemma LowBitOfRemainder(u: nat, p: nat)
    requires p < 5
    ensures Bit(u, p) == Bit(u % 32, p)
  {
    assert Pow2(0) == 1 && Pow2(1) == 2 && Pow2(2) == 4 && Pow2(3) == 8 && Pow2(4) == 16;
    if p == 0 { Parity1(u); }
    else if p == 1 { Parity2(u); }
    else if p == 2 { Parity4(u); }
    else if p == 3 { Parity8(u); }
    else { Parity16(u); }
  }

  /** Adding an even number keeps the parity. */
  lemma EvenShift(a: int, s: int)
    ensures (2 * a + s) % 2 == s % 2
  {
  }

  lemma Parity1(u: nat)
    ensures u % 2 == (u % 32) % 2
  {
    var q, r := u / 32, u % 32;
    assert u == 2 * (16 * q) + r;
    EvenShift(16 * q, r);
  }

  lemma Parity2(u: nat)
    ensures (u / 2) % 2 == ((u % 32) / 2) % 2
  {
    var q, r := u / 32, u % 32;
    assert u == 2 * (16 * q + r / 2) + r % 2;
    assert u / 2 == 16 * q + r / 2;
    EvenShift(8 * q, r / 2);
  }

  lemma Parity4(u: nat)
    ensures (u / 4) % 2 == ((u % 32) / 4) % 2
  {
    var q, r := u / 32, u % 32;
    assert u == 4 * (8 * q + r / 4) + r % 4;
    assert u / 4 == 8 * q + r / 4;
    EvenShift(4 * q, r / 4);
  }

  lemma Parity8(u: nat)
    ensures (u / 8) % 2 == ((u % 32) / 8) % 2
  {
    var q, r := u / 32, u % 32;
    assert u == 8 * (4 * q + r / 8) + r % 8;
    assert u / 8 == 4 * q + r / 8;
    EvenShift(2 * q, r / 8);
  }

  lemma Parity16(u: nat)
    ensures (u / 16) % 2 == ((u % 32) / 16) % 2
  {
    var q, r := u / 32, u % 32;
    assert u == 16 * (2 * q + r / 16) + r % 16;
    assert u / 16 == 2 * q + r / 16;
    EvenShift(q, r / 16);
  }

  /** Values equal modulo 32 have the same bits 0 through 4. */
  lemma LowFiveAgree(u: nat, v: nat, p: nat)
    requires u % 32 == v % 32 && p < 5
    ensures Bit(u, p) == Bit(v, p)
  {
    LowBitOfRemainder(u, p);
    LowBitOfRemainder(v, p);
  }
}

=== FILE: score.dfy ===
/** The serial LCD that shows the score: a bit-banged, chip-selected, LSB-first byte
    stream on three GPIO lines, the 0xFE command prefix of the display's backpack, and
    the 16-character score line. Pin writes and busy waits become trace events. */
module ScoreLcd {
  import opened Prelude

  /** One step of the bit-banged interface: a chip-select, data or clock line write, or a
      busy wait of the given microseconds. Line levels are 0 or 1. */
  datatype LcdEvent = Cs(level: int) | Tx(level: int) | Sck(level: int) | WaitUs(us: nat)

  /** The chip select is active low. */
  const CsLow: LcdEvent := Cs(0)
  const CsHigh: LcdEvent := Cs(1)

  /** The backpack's command prefix byte. */
  const CommandPrefix: uint8 := 0xFE
  const ClearDisplay: uint8 := 0x01
  const FirstLineAddress: uint8 := 0x80
  /** Characters of one display line. */
  const LineWidth: int := 16

  /** The bits of b sent one after another: b >> 0 & 1, b >> 1 & 1, ..., n of them. */
  function ByteBits(b: nat, n: nat): (bits: seq<int>)
    ensures |bits| == n
    ensures forall i | 0 <= i < n :: bits[i] == 0 || bits[i] == 1
  {
    if n == 0 then [] else [b % 2] + ByteBits(b / 2, n - 1)
  }

  /** The value of a bit sequence read least significant bit first. */
  function FromBits(bits: seq<int>): int
  {
    if bits == [] then 0 else bits[0] + 2 * FromBits(bits[1..])
  }

  /** Sending n bits of a value below 2^n and reading them back gives the value. */
  lemma {:induction false} BitsRoundTrip(b: nat, n: nat)
    requires b < Pow2(n)
    ensures FromBits(ByteBits(b, n)) == b
  {
    if n > 0 {
      BitsRoundTrip(b / 2, n - 1);
    }
  }

  /** One data bit: set TX, wait 3 us, raise SCK, wait 3 us, lower SCK. */
  function BitFrame(bit: int): seq<LcdEvent>
  {
    [Tx(bit), WaitUs(3), Sck(1), WaitUs(3), Sck(0)]
  }

  function BitFrames(bits: seq<int>): (t: seq<LcdEvent>)
    ensures |t| == 5 * |bits|
  {
    if bits == [] then [] else BitFrame(bits[0]) + BitFrames(bits[1..])
  }

  /** The bits of a byte string, byte by byte, each byte LSB first. */
  function StreamBits(bytes: seq<uint8>): (bits: seq<int>)
    ensures |bits| == 8 * |bytes|
  {
    if bytes == [] then [] else ByteBits(bytes[0] as nat, 8) + StreamBits(bytes[1..])
  }

  /** `lcd_write_raw`: chip select low, every byte's eight bits LSB first, chip select high. */
  function WriteRaw(bytes: seq<uint8>): (t: seq<LcdEvent>)
    ensures |t| == 40 * |bytes| + 2 && t[0] == CsLow && t[|t| - 1] == CsHigh
    ensures forall i | 0 < i < |t| - 1 :: !t[i].Cs?
  {
    assert forall i | 0 <= i < |BitFrames(StreamBits(bytes))| :: !BitFrames(StreamBits(bytes))[i].Cs? by {
      NoSelectInBitFrames(StreamBits(bytes));
    }
    [CsLow] + BitFrames(StreamBits(bytes)) + [CsHigh]
  }

  lemma {:induction false} NoSelectInBitFrames(bits: seq<int>)
    ensures forall i | 0 <= i < |BitFrames(bits)| :: !BitFrames(bits)[i].Cs?
  {
    if bits != [] {
      NoSelectInBitFrames(bits[1..]);
      assert BitFrames(bits) == BitFrame(bits[0]) + BitFrames(bits[1..]);
    }
  }

  // ---------------------------------------------------------------------------
  // The receiving side: a shift register that samples TX on each rising SCK edge.

  /** The TX levels seen at the rising clock edges, starting with TX at `line`. */
  function Sampled(t: seq<LcdEvent>, line: int): seq<int>
  {
    if t == [] then []
    else match t[0]
      case Tx(v) => Sampled(t[1..], v)
      case Sck(v) => (if v == 1 then [line] else []) + Sampled(t[1..], line)
      case _ => Sampled(t[1..], line)
  }

  /** Sampled bits grouped into bytes of eight, least significant first. */
  function Assemble(bits: seq<int>): seq<int>
    decreases |bits|
  {
    if |bits| < 8 then [] else [FromBits(bits[..8])] + Assemble(bits[8..])
  }

  /** What the display receives from a trace. */
  function Received(t: seq<LcdEvent>): seq<int>
  {
    Assemble(Sampled(t, 0))
  }

  /** One bit frame delivers its bit at the rising edge and leaves TX at that bit. */
  lemma SampledFrame(bit: int, rest: seq<LcdEvent>, line: int)
    ensures Sampled(BitFrame(bit) + rest, line) == [bit] + Sampled(rest, bit)
  {
    var t := BitFrame(bit) + rest;
    assert t[0] == Tx(bit) && t[1] == WaitUs(3) && t[2] == Sck(1) && t[3] == WaitUs(3) && t[4] == Sck(0);
    assert t[1..][1..] == t[2..] && t[2..][1..] == t[3..] && t[3..][1..] == t[4..] && t[4..][1..] == rest;
    assert Sampled(t[4..], bit) == Sampled(rest, bit);
    assert Sampled(t[2..], bit) == [bit] + Sampled(t[3..], bit);
  }

  lemma {:induction false} SampledBitFrames(bits: seq<int>, rest: seq<LcdEvent>, line: int)
    ensures Sampled(BitFrames(bits) + rest, line) == bits + Sampled(rest, if bits == [] then line else bits[|bits| - 1])
  {
    if bits == [] {
      assert BitFrames(bits) + rest == rest;
    } else {
      var t := BitFrames(bits) + rest;
      assert t == BitFrame(bits[0]) + (BitFrames(bits[1..]) + rest);
      SampledFrame(bits[0], BitFrames(bits[1..]) + rest, line);
      SampledBitFrames(bits[1..], rest, bits[0]);
      assert bits == [bits[0]] + bits[1..];
    }
  }

  lemma {:induction false} AssembleStream(bytes: seq<uint8>)
    ensures Assemble(StreamBits(bytes)) == seq(|bytes|, i requires 0 <= i < |bytes| => bytes[i] as int)
  {
    if bytes != [] {
      var bits := StreamBits(bytes);
      assert bits[..8] == ByteBits(bytes[0] as nat, 8);
      assert bits[8..] == StreamBits(bytes[1..]);
      assert Pow2(8) == 256;
      BitsRoundTrip(bytes[0] as nat, 8);
      AssembleStream(bytes[1..]);
    }
  }

  /** What `lcd_write_raw` sends is exactly the bytes it was given, in order. */
  lemma WriteRawRoundTrip(bytes: seq<uint8>)
    ensures Received(WriteRaw(bytes)) == seq(|bytes|, i requires 0 <= i < |bytes| => bytes[i] as int)
    ensures |Sampled(WriteRaw(bytes), 0)| == 8 * |bytes|
  {
    var bits := StreamBits(bytes);
    assert WriteRaw(bytes)[1..] == BitFrames(bits) + [CsHigh];
    SampledBitFrames(bits, [CsHigh], 0);
    assert Sampled([CsHigh], if bits == [] then 0 else bits[|bits| - 1]) == [];
    assert Sampled(WriteRaw(bytes), 0) == bits;
    AssembleStream(bytes);
  }

  // ---------------------------------------------------------------------------
  // Transactions: the events between a chip-select fall and the next rise.

  /** The transactions of a trace, given whether the chip is selected and the events of
      the transaction so far. */
  function Transactions(t: seq<LcdEvent>, selected: bool, cur: seq<LcdEvent>): seq<seq<LcdEvent>>
  {
    if t == [] then []
    else match t[0]
      case Cs(v) =>
        if v == 0 then Transactions(t[1..], true, [])
        else (if selected then [cur] else []) + Transactions(t[1..], false, [])
      case _ => Transactions(t[1..], selected, if selected then cur + [t[0]] else cur)
  }

  lemma {:induction false} TransactionBody(body: seq<LcdEvent>, rest: seq<LcdEvent>, cur: seq<LcdEvent>)
    requires forall i | 0 <= i < |body| :: !body[i].Cs?
    ensures Transactions(body + [CsHigh] + rest, true, cur) == [cur + body] + Transactions(rest, false, [])
  {
    var t := body + [CsHigh] + rest;
    if body == [] {
      assert t == [CsHigh] + rest && t[1..] == rest;
      assert cur + body == cur;
    } else {
      assert t[0] == body[0] && !t[0].Cs?;
      assert t[1..] == body[1..] + [CsHigh] + rest;
      TransactionBody(body[1..], rest, cur + [body[0]]);
      assert cur + [body[0]] + body[1..] == cur + body;
    }
  }

  /** A `lcd_write_raw` call followed by anything is one transaction followed by the
      transactions of the rest. */
  lemma WriteRawTransaction(bytes: seq<uint8>, rest: seq<LcdEvent>)
    ensures Transactions(WriteRaw(bytes) + rest, false, []) ==
      [WriteRaw(bytes)[1..|WriteRaw(bytes)| - 1]] + Transactions(rest, false, [])
  {
    var w := WriteRaw(bytes);
    var body := w[1..|w| - 1];
    assert w == [CsLow] + body + [CsHigh];
    assert w + rest == [CsLow] + (body + [CsHigh] + rest);
    assert (w + rest)[0] == CsLow;
    assert [] + body == body;
    assert (w + rest)[1..] == body + [CsHigh] + rest;
    TransactionBody(body, rest, []);
  }

  /** Waits between transactions are not part of any transaction. */
  lemma WaitTransparent(us: nat, rest: seq<LcdEvent>)
    ensures Transactions([WaitUs(us)] + rest, false, []) == Transactions(rest, false, [])
  {
    assert ([WaitUs(us)] + rest)[1..] == rest;
  }

  /** `lcd_send_cmd`: the prefix and the command in one transaction, then a 2 ms wait. */
  function SendCmd(c: uint8): (t: seq<LcdEvent>)
    ensures |t| == 83
    ensures Received(t[..|t| - 1]) == [CommandPrefix as int, c as int]
    ensures t[0] == CsLow && t[|t| - 2] == CsHigh && t[|t| - 1] == WaitUs(2000)
    ensures forall i | 0 < i < |t| - 2 :: !t[i].Cs?
  {
    var w := WriteRaw([CommandPrefix, c]);
    WriteRawRoundTrip([CommandPrefix, c]);
    assert Received(w) == [CommandPrefix as int, c as int];
    var t := w + [WaitUs(2000)];
    assert t[..|t| - 1] == w;
    t
  }

  // ---------------------------------------------------------------------------
  // Number formatting as `snprintf` does it for `%0Nd` and `%Nd`.

  function DigitChar(d: int): char
    requires 0 <= d < 10
  {
    ('0' as int + d) as char
  }

  /** The decimal digits of n without leading zeros ("0" for 0). */
  function Digits(n: nat): (s: string)
    ensures 1 <= |s|
    ensures forall i | 0 <= i < |s| :: '0' <= s[i] <= '9'
    ensures n < 10 <==> |s| == 1
    ensures s[|s| - 1] == DigitChar(n % 10)
  {
    if n < 10 then [DigitChar(n)] else Digits(n / 10) + [DigitChar(n % 10)]
  }

  function Repeat(c: char, n: int): (s: string)
    ensures |s| == Max(n, 0) && forall i | 0 <= i < |s| :: s[i] == c
  {
    if n <= 0 then [] else [c] + Repeat(c, n - 1)
  }

  /** `%0wd`: the sign, then zeros, then the digits, at least w characters in all. */
  function ZeroPadded(n: int, w: nat): (s: string)
    ensures |s| >= w && IsAsciiText(s)
  {
    var sign := if n < 0 then "-" else "";
    var d := Digits(if n < 0 then -n else n);
    sign + Repeat('0', w - |sign| - |d|) + d
  }

  /** `%wd`: spaces, then the sign and the digits, at least w characters in all. */
  function SpacePadded(n: int, w: nat): (s: string)
    ensures |s| >= w && |s| >= 1 && IsAsciiText(s)
    ensures n >= 0 ==> s[|s| - 1] == DigitChar(n % 10)
  {
    var body := (if n < 0 then "-" else "") + Digits(if n < 0 then -n else n);
    Repeat(' ', w - |body|) + body
  }

  /** The value of a field of digits, where spaces count as leading zeros. */
  function FieldValue(s: string): nat
  {
    if s == [] then 0
    else
      var c := s[|s| - 1];
      FieldValue(s[..|s| - 1]) * 10 + (if '0' <= c <= '9' then c as int - '0' as int else 0)
  }

  lemma {:induction false} DigitsRoundTrip(n: nat)
    ensures FieldValue(Digits(n)) == n
  {
    if n >= 10 {
      var s := Digits(n);
      assert s[..|s| - 1] == Digits(n / 10);
      DigitsRoundTrip(n / 10);
    }
  }

  /** Leading padding made of one character that reads as zero does not change a field's value. */
  lemma {:induction false} PaddingValue(c: char, k: int, s: string)
    requires c == ' ' || c == '0'
    ensures FieldValue(Repeat(c, k) + s) == FieldValue(s)
    decreases |s|
  {
    var p := Repeat(c, k);
    if s == [] {
      PadValueZero(c, k);
      assert p + s == p;
    } else {
      assert (p + s)[..|p + s| - 1] == p + s[..|s| - 1];
      PaddingValue(c, k, s[..|s| - 1]);
    }
  }

  lemma {:induction false} PadValueZero(c: char, k: int)
    requires c == ' ' || c == '0'
    ensures FieldValue(Repeat(c, k)) == 0
    decreases k
  {
    if k > 0 {
      var p := Repeat(c, k);
      assert p[..|p| - 1] == Repeat(c, k - 1);
      PadValueZero(c, k - 1);
    }
  }

  // ---------------------------------------------------------------------------
  // The score line.

  /** The characters `snprintf` leaves in the 32-byte buffer: at most 31 plus the terminator. */
  function Truncate(s: string): (r: string)
    ensures |r| == Min(|s|, 31) && r == s[..|r|]
  {
    if |s| > 31 then s[..31] else s
  }

  /** The buffer of `lcd_print_score`: "Lvl%02d Score:%5d". */
  function ScoreText(score: int, level: int): (s: string)
    ensures |s| >= 17 && IsAsciiText(s)
  {
    Truncate("Lvl" + ZeroPadded(level, 2) + " Score:" + SpacePadded(score, 5))
  }

  /** Exactly 16 characters for the first line: the text cut to 16, or padded with spaces. */
  function FitLine(s: string): (line: string)
    ensures |line| == LineWidth
    ensures |s| >= LineWidth ==> line == s[..LineWidth]
    ensures |s| < LineWidth ==> line[..|s|] == s && forall i | |s| <= i < LineWidth :: line[i] == ' '
  {
    if |s| >= 16 then s[..16] else s + Repeat(' ', 16 - |s|)
  }

  function Ascii(s: string): (b: seq<uint8>)
    requires forall i | 0 <= i < |s| :: s[i] as int < 256
    ensures |b| == |s| && forall i | 0 <= i < |s| :: b[i] as int == s[i] as int
  {
    seq(|s|, i requires 0 <= i < |s| => s[i] as int as uint8)
  }

  /** Every character `snprintf` writes here is ASCII. */
  predicate IsAsciiText(s: string)
  {
    forall i | 0 <= i < |s| :: s[i] as int < 128
  }

  lemma TextIsAscii(score: int, level: int)
    ensures IsAsciiText(FitLine(ScoreText(score, level)))
  {
  }

  /** The line `lcd_print_score` writes, as the code has it. */
  function ScoreLine(score: int, level: int): (line: string)
    ensures |line| == LineWidth && IsAsciiText(line)
    ensures line == ScoreText(score, level)[..LineWidth]
  {
    TextIsAscii(score, level);
    FitLine(ScoreText(score, level))
  }

  /** `lcd_print_score` on the wire: clear the display, wait, address the first line,
      then the 16 characters. */
  function PrintScore(score: int, level: int): (t: seq<LcdEvent>)
  {
    var line := ScoreLine(score, level);
    SendCmd(ClearDisplay) + [WaitUs(2000)] + SendCmd(FirstLineAddress) + WriteRaw(Ascii(line))
  }

  /** The byte values of a byte string. */
  function Codes(bytes: seq<uint8>): (v: seq<int>)
    ensures |v| == |bytes| && forall i | 0 <= i < |v| :: v[i] == bytes[i] as int
  {
    seq(|bytes|, i requires 0 <= i < |bytes| => bytes[i] as int)
  }

  function Decode(frames: seq<seq<LcdEvent>>): seq<seq<int>>
  {
    seq(|frames|, i requires 0 <= i < |frames| => Assemble(Sampled(frames[i], 0)))
  }

  /** The body of one `lcd_write_raw` transaction decodes to its bytes. */
  lemma FrameContents(bytes: seq<uint8>)
    ensures var w := WriteRaw(bytes);
      Assemble(Sampled(w[1..|w| - 1], 0)) == Codes(bytes)
  {
    var w := WriteRaw(bytes);
    var bits := StreamBits(bytes);
    assert w[1..|w| - 1] == BitFrames(bits) + [];
    SampledBitFrames(bits, [], 0);
    assert Sampled(w[1..|w| - 1], 0) == bits + [];
    assert bits + [] == bits;
    AssembleStream(bytes);
  }

  /** Two commands and a data write, with 2 ms waits, as the display sees them. */
  lemma CommandsThenData(c1: uint8, c2: uint8, data: seq<uint8>)
    ensures Decode(Transactions(SendCmd(c1) + [WaitUs(2000)] + SendCmd(c2) + WriteRaw(data), false, [])) ==
      [[0xFE, c1 as int], [0xFE, c2 as int], Codes(data)]
  {
    var b1, b2 := [CommandPrefix, c1], [CommandPrefix, c2];
    var w1, w2, w3 := WriteRaw(b1), WriteRaw(b2), WriteRaw(data);
    var wait := [WaitUs(2000)];
    var t := SendCmd(c1) + wait + SendCmd(c2) + w3;
    var tail3 := w3 + [];
    var tail2 := w2 + (wait + tail3);
    var tail1 := wait + (wait + tail2);
    assert t == w1 + tail1;
    WriteRawTransaction(data, []);
    WaitTransparent(2000, tail3);
    WriteRawTransaction(b2, wait + tail3);
    WaitTransparent(2000, tail2);
    WaitTransparent(2000, wait + tail2);
    WriteRawTransaction(b1, tail1);
    assert Transactions(t, false, []) == [w1[1..|w1| - 1], w2[1..|w2| - 1], w3[1..|w3| - 1]];
    FrameContents(b1);
    FrameContents(b2);
    FrameContents(data);
    assert Codes(b1) == [0xFE, c1 as int] && Codes(b2) == [0xFE, c2 as int];
  }

  /** The display receives three chip-select transactions: 0xFE 0x01 (clear), 0xFE 0x80
      (first line) and the 16 character codes of the line. */
  lemma PrintScoreTransactions(score: int, level: int)
    ensures var line := ScoreLine(score, level);
      Decode(Transactions(PrintScore(score, level), false, [])) ==
        [[0xFE, 0x01], [0xFE, 0x80], seq(LineWidth, i requires 0 <= i < LineWidth => line[i] as int)]
  {
    var line := ScoreLine(score, level);
    var b := Ascii(line);
    assert PrintScore(score, level) == SendCmd(ClearDisplay) + [WaitUs(2000)] + SendCmd(FirstLineAddress) + WriteRaw(b);
    CommandsThenData(ClearDisplay, FirstLineAddress, b);
    assert Codes(b) == seq(LineWidth, i requires 0 <= i < LineWidth => line[i] as int);
  }

  /** The score text is always at least 17 characters, so the 16-character line never
      contains its last character, the units digit of the score: a score of 50 on level 1
      reads "Lvl01 Score:   5". */
  lemma ScoreUnitsDigitHidden(score: int, level: int)
    requires 0 <= score
    ensures var full := "Lvl" + ZeroPadded(level, 2) + " Score:" + SpacePadded(score, 5);
      && |full| > LineWidth && full[|full| - 1] == DigitChar(score % 10)
      && ScoreLine(score, level) == full[..LineWidth]
  {
    var full := "Lvl" + ZeroPadded(level, 2) + " Score:" + SpacePadded(score, 5);
    var sp := SpacePadded(score, 5);
    assert full[|full| - 1] == sp[|sp| - 1];
    assert ScoreText(score, level) == Truncate(full);
  }

  lemma ScoreFiftyShowsFive()
    ensures ScoreLine(50, 1) == "Lvl01 Score:   5"
  {
    assert Digits(1) == "1" && Digits(50) == "50";
    assert ZeroPadded(1, 2) == "01";
    assert SpacePadded(50, 5) == "   50";
    var text := "Lvl01 Score:   50";
    assert "Lvl" + ZeroPadded(1, 2) + " Score:" + SpacePadded(50, 5) == text;
    assert ScoreText(50, 1) == text;
    assert text[..16] == "Lvl01 Score:   5";
  }

  // ---------------------------------------------------------------------------
  // The line as evidently intended: sixteen characters that include the whole score.

  /** "Lvl%02dScore:%5d": the same fields with one space fewer, so levels up to 99 and
      scores up to 99999 fit the line exactly. */
  function IntendedLine(score: int, level: int): (line: string)
    requires 0 <= score <= 99999 && 0 <= level <= 99
    ensures |line| == LineWidth
    ensures var text := "Lvl" + ZeroPadded(level, 2) + "Score:" + SpacePadded(score, 5);
      |text| == LineWidth && line == text
  {
    LevelField(level);
    ScoreField(score);
    FitLine("Lvl" + ZeroPadded(level, 2) + "Score:" + SpacePadded(score, 5))
  }

  /** For levels 0..99 the `%02d` field is two characters that read back as the level. */
  lemma LevelField(level: int)
    requires 0 <= level <= 99
    ensures var f := ZeroPadded(level, 2); |f| == 2 && FieldValue(f) == level
  {
    var d := Digits(level);
    if level >= 10 {
      assert Digits(level / 10) == [DigitChar(level / 10)];
    }
    assert |d| <= 2;
    assert ZeroPadded(level, 2) == Repeat('0', 2 - |d|) + d;
    PaddingValue('0', 2 - |d|, d);
    DigitsRoundTrip(level);
  }

  /** For scores 0..99999 the `%5d` field is five characters that read back as the score. */
  lemma ScoreField(score: int)
    requires 0 <= score <= 99999
    ensures var f := SpacePadded(score, 5); |f| == 5 && FieldValue(f) == score
  {
    var e := Digits(score);
    DigitsAtMost(score, 5);
    assert SpacePadded(score, 5) == Repeat(' ', 5 - |e|) + ("" + e);
    assert "" + e == e;
    PaddingValue(' ', 5 - |e|, e);
    DigitsRoundTrip(score);
  }

  /** The intended line can be read back: characters 3-4 give the level and 11-15 the score. */
  lemma IntendedLineRoundTrip(score: int, level: int)
    requires 0 <= score <= 99999 && 0 <= level <= 99
    ensures var line := IntendedLine(score, level);
      FieldValue(line[3..5]) == level && FieldValue(line[11..16]) == score
  {
    var lv := ZeroPadded(level, 2);
    var sc := SpacePadded(score, 5);
    LevelField(level);
    ScoreField(score);
    var text := "Lvl" + lv + "Score:" + sc;
    assert |text| == 16;
    assert text[3..5] == lv && text[11..16] == sc;
    assert IntendedLine(score, level) == text[..16] == text;
  }

  function Pow10(k: nat): (r: nat)
    ensures r >= 1
  {
    if k == 0 then 1 else 10 * Pow10(k - 1)
  }

  /** A number below 10^k has at most k digits. */
  lemma {:induction false} DigitsAtMost(n: nat, k: nat)
    requires 1 <= k && n < Pow10(k)
    ensures |Digits(n)| <= k
  {
    if n >= 10 {
      assert k >= 2;
      assert n / 10 < Pow10(k - 1);
      DigitsAtMost(n / 10, k - 1);
    }
  }
}

=== FILE: text.dfy ===
/** Centred banner text on the matrix: the 5x7 glyph table, the character lookup,
    the choice between one 5-column line, one 4-column line and two lines, and the
    pixels a banner lights. Both `show_centered_text` and `draw_centered_text_once`
    use this layout; the former draws with no vertical offset in the default colour. */
module TextDisplay {
  import opened Prelude
  import opened Matrix

  const GlyphRows: int := 7
  const FontGlyphs: int := 13
  const TextColour := Rgb(0, 200, 200)

  /** `FONT5x7`: thirteen glyphs of five columns each; bit `row` of a column is the
      pixel `row` rows below the glyph's top. */
  const Font: seq<seq<nat>> := [
    [0x00, 0x00, 0x00, 0x00, 0x00],  // space
    [0x7C, 0x12, 0x11, 0x12, 0x7C],  // A
    [0x7F, 0x41, 0x41, 0x22, 0x1C],  // D
    [0x7F, 0x49, 0x49, 0x49, 0x41],  // E
    [0x7F, 0x08, 0x08, 0x08, 0x7F],  // H
    [0x7F, 0x06, 0x18, 0x06, 0x7F],  // M
    [0x7F, 0x09, 0x19, 0x29, 0x46],  // R
    [0x46, 0x49, 0x49, 0x49, 0x31],  // S
    [0x07, 0x08, 0x70, 0x08, 0x07],  // Y
    [0x00, 0x41, 0x7F, 0x41, 0x00],  // I
    [0x3F, 0x40, 0x40, 0x40, 0x3F],  // U
    [0x7F, 0x06, 0x18, 0x60, 0x7F],  // N
    [0x7F, 0x40, 0x38, 0x40, 0x7F]   // W
  ]

  /** The characters the font can draw, in table order. */
  const Charset: string := " ADEHMRSYIUNW"

  /** `font_index_for_char`: the glyph of a supported character; anything else is drawn as a space. */
  function FontIndex(ch: char): (idx: int)
    ensures 0 <= idx < FontGlyphs
    ensures ch in Charset ==> Charset[idx] == ch
    ensures ch !in Charset ==> idx == 0
  {
    if ch == ' ' then 0
    else if ch == 'A' then 1
    else if ch == 'D' then 2
    else if ch == 'E' then 3
    else if ch == 'H' then 4
    else if ch == 'M' then 5
    else if ch == 'R' then 6
    else if ch == 'S' then 7
    else if ch == 'Y' then 8
    else if ch == 'I' then 9
    else if ch == 'U' then 10
    else if ch == 'N' then 11
    else if ch == 'W' then 12
    else 0
  }

  /** Every glyph of the table is reached by exactly its own character. */
  lemma FontIndexInverse(idx: int)
    requires 0 <= idx < FontGlyphs
    ensures FontIndex(Charset[idx]) == idx
    ensures forall ch: char | FontIndex(ch) == idx && idx != 0 :: ch == Charset[idx]
  {
  }

  /** Pixel (col, row) of glyph `idx` is lit. */
  predicate GlyphBit(idx: int, col: int, row: int)
    requires 0 <= idx < FontGlyphs && 0 <= col < 5 && 0 <= row
  {
    Bit(Font[idx][col], row) == 1
  }

  /** Glyph `idx`, drawn n columns wide with top-left corner (x, y), lights cell (xx, yy). */
  predicate GlyphPixel(idx: int, x: int, y: int, n: int, xx: int, yy: int)
    requires 0 <= idx < FontGlyphs && n <= 5
  {
    x <= xx < x + n && y <= yy < y + GlyphRows && GlyphBit(idx, xx - x, yy - y)
  }

  // ---------------------------------------------------------------------------
  // Painting glyphs

  /** The row loop of one glyph column: rows 0 .. n-1 of column bits `bits` at (x, y). */
  function PaintColumn(fb: Framebuffer, bits: nat, x: int, y: int, n: nat, c: Rgb): (r: Framebuffer)
    requires IsFramebuffer(fb) && n <= GlyphRows
    ensures IsFramebuffer(r)
    ensures forall yy, xx | OnBoard(xx, yy) ::
      r[yy][xx] == if xx == x && y <= yy < y + n && Bit(bits, yy - y) == 1 then c else fb[yy][xx]
  {
    if n == 0 then fb
    else
      var prev := PaintColumn(fb, bits, x, y, n - 1, c);
      if Bit(bits, n - 1) == 1 then SetPixel(prev, x, y + n - 1, c) else prev
  }

  /** The column loop of one glyph: columns 0 .. n-1 of glyph `idx` with top-left corner (x, y). */
  function PaintGlyph(fb: Framebuffer, idx: int, x: int, y: int, n: nat, c: Rgb): (r: Framebuffer)
    requires IsFramebuffer(fb) && 0 <= idx < FontGlyphs && n <= 5
    ensures IsFramebuffer(r)
    ensures forall yy, xx | OnBoard(xx, yy) ::
      r[yy][xx] == if GlyphPixel(idx, x, y, n, xx, yy) then c else fb[yy][xx]
  {
    if n == 0 then fb
    else PaintColumn(PaintGlyph(fb, idx, x, y, n - 1, c), Font[idx][n - 1], x + n - 1, y, GlyphRows, c)
  }

  /** Which glyph of a line covers horizontal offset d, for glyph width 4 or 5
      (written per width so that the arithmetic stays linear). */
  function Slot(d: int, w: int): int
    requires w == 4 || w == 5
  {
    if w == 4 then d / 4 else d / 5
  }

  /** The column within that glyph. */
  function Offset(d: int, w: int): int
    requires w == 4 || w == 5
  {
    if w == 4 then d % 4 else d % 5
  }

  /** The text line `line`, drawn from (x, y) with glyphs `w` columns wide, lights cell (xx, yy). */
  predicate LinePixel(line: string, x: int, y: int, w: int, xx: int, yy: int)
    requires w == 4 || w == 5
  {
    var d := xx - x;
    && 0 <= d && y <= yy < y + GlyphRows
    && Slot(d, w) < |line|
    && GlyphBit(FontIndex(line[Slot(d, w)]), Offset(d, w), yy - y)
  }

  /** The character loop of the text drawing: each glyph `w` columns to the right of the last. */
  function PaintLine(fb: Framebuffer, line: string, x: int, y: int, w: int, c: Rgb): (r: Framebuffer)
    requires IsFramebuffer(fb) && (w == 4 || w == 5)
    ensures IsFramebuffer(r)
    decreases |line|
  {
    if |line| == 0 then fb
    else PaintLine(PaintGlyph(fb, FontIndex(line[0]), x, y, w, c), line[1..], x + w, y, w, c)
  }

  /** A line lights a cell through its first glyph or through the rest of the line. */
  lemma LinePixelSplit(line: string, x: int, y: int, w: int, xx: int, yy: int)
    requires |line| > 0 && (w == 4 || w == 5)
    ensures LinePixel(line, x, y, w, xx, yy) <==>
      GlyphPixel(FontIndex(line[0]), x, y, w, xx, yy) || LinePixel(line[1..], x + w, y, w, xx, yy)
  {
    var d := xx - x;
    if 0 <= d < w {
      FirstGlyph(line, x, y, w, xx, yy);
    } else if w <= d {
      LaterGlyph(line, x, y, w, xx, yy);
    }
  }

  lemma FirstGlyph(line: string, x: int, y: int, w: int, xx: int, yy: int)
    requires |line| > 0 && (w == 4 || w == 5) && 0 <= xx - x < w
    ensures LinePixel(line, x, y, w, xx, yy) <==> GlyphPixel(FontIndex(line[0]), x, y, w, xx, yy)
    ensures !LinePixel(line[1..], x + w, y, w, xx, yy)
  {
    assert Slot(xx - x, w) == 0 && Offset(xx - x, w) == xx - x;
  }

  lemma LaterGlyph(line: string, x: int, y: int, w: int, xx: int, yy: int)
    requires |line| > 0 && (w == 4 || w == 5) && w <= xx - x
    ensures LinePixel(line, x, y, w, xx, yy) <==> LinePixel(line[1..], x + w, y, w, xx, yy)
  {
    var d := xx - x;
    var k := Slot(d - w, w);
    assert Slot(d, w) == k + 1 && Offset(d, w) == Offset(d - w, w);
    if k < |line| - 1 {
      assert line[k + 1] == line[1..][k];
    }
  }

  /** A glyph pixel is drawn exactly when its column bit is set, and only the first
      `w` columns of each glyph are drawn: a drawn line lights exactly its `LinePixel`s. */
  lemma {:induction false} PaintLineLights(fb: Framebuffer, line: string, x: int, y: int, w: int, c: Rgb, xx: int, yy: int)
    requires IsFramebuffer(fb) && (w == 4 || w == 5) && OnBoard(xx, yy)
    ensures PaintLine(fb, line, x, y, w, c)[yy][xx] == if LinePixel(line, x, y, w, xx, yy) then c else fb[yy][xx]
    decreases |line|
  {
    if |line| > 0 {
      var g := PaintGlyph(fb, FontIndex(line[0]), x, y, w, c);
      PaintLineLights(g, line[1..], x + w, y, w, c, xx, yy);
      LinePixelSplit(line, x, y, w, xx, yy);
    }
  }

  // ---------------------------------------------------------------------------
  // Layout

  datatype TextLine = TextLine(chars: string, x: int, y: int)

  /** Glyph width and the lines of a centred banner. */
  datatype Layout = Layout(glyphW: int, lines: seq<TextLine>)

  /** Pixel width of a line with glyphs w columns wide and no spacing. */
  function LineWidth(line: string, w: int): int
    requires w == 4 || w == 5
  {
    if w == 4 then |line| * 4 else |line| * 5
  }

  /** The layout of `draw_centered_text_once`. Texts longer than 62 characters would
      overflow its 32-byte line buffers. */
  function CentredLayout(text: string, yOff: int): (l: Layout)
    requires |text| <= 62
    ensures l.glyphW == 4 || l.glyphW == 5
    ensures |text| * 5 <= Size ==> l.glyphW == 5 && |l.lines| == 1
    ensures |text| * 5 > Size && |text| * 4 <= Size ==> l.glyphW == 4 && |l.lines| == 1
    ensures |text| * 4 > Size ==> |l.lines| == 2
    ensures |l.lines| == 1 || |l.lines| == 2
    ensures |l.lines| == 1 ==>
      && l.lines[0].chars == text
      && 0 <= l.lines[0].x && l.lines[0].x + LineWidth(text, l.glyphW) <= Size
      && l.lines[0].y == 12 + yOff
    ensures |l.lines| == 2 ==>
      && |l.lines[0].chars| == (|text| + 1) / 2 && |l.lines[1].chars| == |text| / 2
      && l.lines[0].chars + l.lines[1].chars == text
      && (l.glyphW == 4 <==> |l.lines[0].chars| * 5 > Size || |l.lines[1].chars| * 5 > Size)
      && l.lines[0].y == 8 + yOff && l.lines[1].y == l.lines[0].y + 8
    ensures forall i | 0 <= i < |l.lines| ::
      -1 <= (Size - l.lines[i].x - LineWidth(l.lines[i].chars, l.glyphW)) - l.lines[i].x <= 1
  {
    var len := |text|;
    var glyphW := if len * 5 <= Size then 5 else if len * 4 <= Size then 4 else 5;
    var totalW := LineWidth(text, glyphW);
    if totalW <= Size then
      Layout(glyphW, [TextLine(text, CDiv(Size - totalW, 2), CDiv(Size - GlyphRows, 2) + yOff)])
    else
      var split := (len + 1) / 2;
      var line1, line2 := text[..split], text[split..];
      var w := if LineWidth(line1, glyphW) > Size || LineWidth(line2, glyphW) > Size then 4 else glyphW;
      var lineHeight, verticalSpacing := GlyphRows, 1;
      var yTop := CDiv(Size - (lineHeight * 2 + verticalSpacing), 2) + yOff;
      Layout(w, [TextLine(line1, CDiv(Size - LineWidth(line1, w), 2), yTop),
                 TextLine(line2, CDiv(Size - LineWidth(line2, w), 2), yTop + lineHeight + verticalSpacing)])
  }

  /** The layout by length: up to 6 characters in one 5-column line, 7 or 8 in one
      4-column line, 9 to 12 in two 5-column lines and 13 or more in two 4-column lines. */
  lemma LayoutByLength(text: string, yOff: int)
    requires |text| <= 62
    ensures var l := CentredLayout(text, yOff);
      && (|text| <= 6 ==> |l.lines| == 1 && l.glyphW == 5)
      && (7 <= |text| <= 8 ==> |l.lines| == 1 && l.glyphW == 4)
      && (9 <= |text| <= 12 ==> |l.lines| == 2 && l.glyphW == 5)
      && (13 <= |text| ==> |l.lines| == 2 && l.glyphW == 4)
  {
  }

  /** Cell (xx, yy) belongs to a lit pixel of one of the layout's lines. */
  predicate BannerPixel(l: Layout, xx: int, yy: int)
    requires l.glyphW == 4 || l.glyphW == 5
  {
    exists i | 0 <= i < |l.lines| :: LinePixel(l.lines[i].chars, l.lines[i].x, l.lines[i].y, l.glyphW, xx, yy)
  }

  /** A line painted over `fb`, cell by cell. */
  lemma PaintLineCells(fb: Framebuffer, t: TextLine, w: int, c: Rgb)
    requires IsFramebuffer(fb) && (w == 4 || w == 5)
    ensures forall yy, xx | OnBoard(xx, yy) ::
      PaintLine(fb, t.chars, t.x, t.y, w, c)[yy][xx] == if LinePixel(t.chars, t.x, t.y, w, xx, yy) then c else fb[yy][xx]
  {
    forall yy, xx | OnBoard(xx, yy)
      ensures PaintLine(fb, t.chars, t.x, t.y, w, c)[yy][xx] == if LinePixel(t.chars, t.x, t.y, w, xx, yy) then c else fb[yy][xx]
    {
      PaintLineLights(fb, t.chars, t.x, t.y, w, c, xx, yy);
    }
  }

  /** `draw_centered_text_once`: a cleared frame with exactly the banner's pixels lit in colour c. */
  function DrawCentredText(text: string, c: Rgb, yOff: int): (fb: Framebuffer)
    requires |text| <= 62
    ensures IsFramebuffer(fb)
    ensures forall yy, xx | OnBoard(xx, yy) ::
      fb[yy][xx] == if BannerPixel(CentredLayout(text, yOff), xx, yy) then c else Black
  {
    var l := CentredLayout(text, yOff);
    var first := l.lines[0];
    var fb1 := PaintLine(Clear(), first.chars, first.x, first.y, l.glyphW, c);
    PaintLineCells(Clear(), first, l.glyphW, c);
    if |l.lines| == 1 then fb1
    else
      var second := l.lines[1];
      PaintLineCells(fb1, second, l.glyphW, c);
      PaintLine(fb1, second.chars, second.x, second.y, l.glyphW, c)
  }

  /** The frame `show_centered_text` draws for `text`: the banner of the centred layout
      in the text colour on a cleared panel. */
  function ShowCentredText(text: string): (fb: Framebuffer)
    requires |text| <= 62
    ensures IsFramebuffer(fb)
    ensures forall yy, xx | OnBoard(xx, yy) ::
      fb[yy][xx] == if BannerPixel(CentredLayout(text, 0), xx, yy) then TextColour else Black
  {
    DrawCentredText(text, TextColour, 0)
  }
}

=== FILE: uart.dfy ===
/** The serial-port lab: the STEP3 blocking `_read`/`_write` pair, the STEP4/STEP5
    interrupt-driven line editor with its 32-byte buffer and the `_read` that drains it,
    and the STEP5 command shell's tokenizer and `gpio` command. Bytes arriving on the
    UART are an input sequence; bytes sent back are an output sequence; pin writes are
    a table of pin states. */
module UartLab {
  import opened Prelude

  const Backspace: uint8 := 8
  const Newline: uint8 := 10
  const Space: uint8 := 32

  /** What the terminal is sent to erase one character: back, blank, back. */
  const EraseEcho: seq<uint8> := [Backspace, Space, Backspace]

  // ---------------------------------------------------------------------------
  // STEP3: blocking reads and writes.

  /** The result of a STEP3 `_read` call: the return value, the bytes stored at the start
      of the caller's buffer, how many input bytes it consumed, and the echo sent back. */
  datatype ReadResult = ReadResult(count: int, stored: seq<uint8>, consumed: nat, echo: seq<uint8>)

  /** The position of the first byte that is not a backspace, if there is one. */
  function FirstNonBackspace(input: seq<uint8>): (k: Option<nat>)
    ensures k.Some? ==> k.value < |input| && input[k.value] != Backspace
    ensures k.Some? ==> forall j | 0 <= j < k.value :: input[j] == Backspace
    ensures k.None? ==> forall j | 0 <= j < |input| :: input[j] == Backspace
  {
    if input == [] then None
    else if input[0] != Backspace then Some(0)
    else match FirstNonBackspace(input[1..])
      case None => None
      case Some(k) => Some(k + 1)
  }

  function Repeated(s: seq<uint8>, n: nat): (r: seq<uint8>)
    ensures |r| == n * |s|
  {
    if n == 0 then [] else s + Repeated(s, n - 1)
  }

  /** STEP3 `_read`. Each backspace is echoed as an erase and, since nothing has been
      stored yet, leaves the count at 0; the first other byte is echoed, stored, and the
      call returns 1 at once. A non-positive length returns 0 without reading. The
      result is None when the input runs out first: the call would still be blocked. */
  method Step3Read(input: seq<uint8>, length: int) returns (r: Option<ReadResult>)
    ensures length <= 0 ==> r == Some(ReadResult(0, [], 0, []))
    ensures length > 0 ==> match FirstNonBackspace(input)
      case None => r.None?
      case Some(k) => r == Some(ReadResult(1, [input[k]], k + 1, Repeated(EraseEcho, k) + [input[k]]))
  {
    var count := 0;
    var stored: seq<uint8> := [];
    var echo: seq<uint8> := [];
    var i := 0;
    while count < length
      invariant 0 <= i <= |input|
      invariant count == 0 && stored == []
      invariant forall j | 0 <= j < i :: input[j] == Backspace
      invariant echo == Repeated(EraseEcho, i)
      invariant length <= 0 ==> i == 0
      decreases |input| - i
    {
      if i == |input| {
        // The next uart_read_blocking would wait forever.
        ghost var k := FirstNonBackspace(input);
        assert k.None?;
        return None;
      }
      var ch := input[i];
      i := i + 1;
      if ch == Backspace {
        RepeatedStep(EraseEcho, i - 1);
        echo := echo + EraseEcho;
        if count > 0 {
          count := count - 1;
        }
        continue;
      }
      echo := echo + [ch];
      stored := stored + [ch];
      count := count + 1;
      FirstNonBackspaceAt(input, i - 1);
      assert echo == Repeated(EraseEcho, i - 1) + [input[i - 1]];
      assert count == 1 && stored == [input[i - 1]];
      return Some(ReadResult(count, stored, i, echo));
    }
    assert length <= 0 && i == 0 && echo == [];
    return Some(ReadResult(count, stored, i, echo));
  }

  lemma RepeatedStep(s: seq<uint8>, n: nat)
    ensures Repeated(s, n) + s == Repeated(s, n + 1)
  {
    if n > 0 {
      RepeatedStep(s, n - 1);
    }
  }

  lemma {:induction false} FirstNonBackspaceAt(input: seq<uint8>, k: nat)
    requires k < |input| && input[k] != Backspace
    requires forall j | 0 <= j < k :: input[j] == Backspace
    ensures FirstNonBackspace(input) == Some(k)
  {
    if k > 0 {
      FirstNonBackspaceAt(input[1..], k - 1);
    }
  }

  /** `_write` (the same in every step): `buffer[0..length)` in order, then `length`. */
  method Write(buffer: seq<uint8>, length: int) returns (out: seq<uint8>, ret: int)
    requires length <= |buffer|
    ensures ret == length
    ensures |out| == Max(length, 0)
    ensures forall i | 0 <= i < |out| :: out[i] == buffer[i]
  {
    out := [];
    var i := 0;
    while i < length
      invariant 0 <= i <= Max(length, 0) && |out| == i
      invariant forall j | 0 <= j < i :: out[j] == buffer[j]
    {
      out := out + [buffer[i]];
      i := i + 1;
    }
    ret := length;
  }

  // ---------------------------------------------------------------------------
  // STEP4/STEP5: the receive interrupt's line editor.

  /** `BUFSIZE`. */
  const LineCapacity: int := 32

  /** `serbuf`, `seridx` and `newline_seen`. */
  datatype LineBuffer = LineBuffer(buf: seq<uint8>, idx: int, newlineSeen: bool)

  predicate ValidLine(s: LineBuffer)
  {
    |s.buf| == LineCapacity && 0 <= s.idx <= LineCapacity
  }

  /** The characters typed so far. */
  function Text(s: LineBuffer): seq<uint8>
    requires ValidLine(s)
  {
    s.buf[..s.idx]
  }

  datatype RxResult = RxResult(line: LineBuffer, echo: seq<uint8>)

  /** `uart_rx_handler` for one value of `uart_getc` (negative: nothing received). Nothing
      is done once the buffer holds 32 bytes, not even for a newline. A newline writes a
      terminator after the text and raises the flag; a backspace erases the last
      character if there is one; any other byte is echoed and appended. */
  function Receive(s: LineBuffer, c: int): (r: RxResult)
    requires ValidLine(s) && c < 256
    ensures ValidLine(r.line)
    ensures c < 0 || s.idx >= LineCapacity ==> r == RxResult(s, [])
    ensures 0 <= c && s.idx < LineCapacity ==>
      if c == Newline as int then
        && r.line.idx == s.idx && r.line.newlineSeen && Text(r.line) == Text(s)
        && r.line.buf[s.idx] == 0 && r.echo == [Newline]
      else if c == Backspace as int then
        if s.idx > 0 then
          && r.line.idx == s.idx - 1 && Text(r.line) == Text(s)[..s.idx - 1]
          && r.line.buf[s.idx - 1] == 0 && r.echo == EraseEcho && r.line.newlineSeen == s.newlineSeen
        else r == RxResult(s, [])
      else
        && r.line.idx == s.idx + 1 && Text(r.line) == Text(s) + [c as uint8]
        && r.echo == [c as uint8] && r.line.newlineSeen == s.newlineSeen
  {
    if c < 0 then RxResult(s, [])
    else if s.idx >= LineCapacity then RxResult(s, [])
    else if c == Newline as int then
      RxResult(s.(buf := s.buf[s.idx := 0], newlineSeen := true), [Newline])
    else if c == Backspace as int then
      if s.idx > 0 then
        var idx := s.idx - 1;
        RxResult(s.(buf := s.buf[idx := 0], idx := idx), EraseEcho)
      else RxResult(s, [])
    else
      RxResult(s.(buf := s.buf[s.idx := c as uint8], idx := s.idx + 1), [c as uint8])
  }

  /** The handler run over a sequence of received bytes. */
  function ReceiveAll(s: LineBuffer, cs: seq<uint8>): (r: LineBuffer)
    requires ValidLine(s)
    ensures ValidLine(r)
    decreases |cs|
  {
    if cs == [] then s else ReceiveAll(Receive(s, cs[0] as int).line, cs[1..])
  }

  /** Backspace undoes a typed character: the text is as before. */
  lemma BackspaceUndoesTyping(s: LineBuffer, c: uint8)
    requires ValidLine(s) && s.idx + 1 < LineCapacity && c != Newline && c != Backspace
    ensures Text(Receive(Receive(s, c as int).line, Backspace as int).line) == Text(s)
  {
    var s1 := Receive(s, c as int).line;
    assert Text(s1) == Text(s) + [c];
    assert Text(Receive(s1, Backspace as int).line) == Text(s1)[..s.idx];
    assert (Text(s) + [c])[..s.idx] == Text(s);
  }

  predicate Printable(cs: seq<uint8>)
  {
    forall i | 0 <= i < |cs| :: cs[i] != Newline && cs[i] != Backspace
  }

  /** Bytes that are neither newline nor backspace are appended in order while they fit. */
  lemma {:induction false} TypingAppends(s: LineBuffer, cs: seq<uint8>)
    requires ValidLine(s) && Printable(cs) && s.idx + |cs| <= LineCapacity
    ensures ReceiveAll(s, cs).idx == s.idx + |cs|
    ensures Text(ReceiveAll(s, cs)) == Text(s) + cs
    ensures ReceiveAll(s, cs).newlineSeen == s.newlineSeen
    decreases |cs|
  {
    if cs != [] {
      var s1 := Receive(s, cs[0] as int).line;
      TypingAppends(s1, cs[1..]);
      assert Text(s) + cs == Text(s) + [cs[0]] + cs[1..];
    }
  }

  /** Once the buffer is full, every byte, newline included, is ignored. */
  lemma {:induction false} FullBufferIgnoresAll(s: LineBuffer, cs: seq<uint8>)
    requires ValidLine(s) && s.idx == LineCapacity
    ensures ReceiveAll(s, cs) == s
    decreases |cs|
  {
    if cs != [] {
      FullBufferIgnoresAll(s, cs[1..]);
    }
  }

  lemma {:induction false} ReceiveAllAppend(s: LineBuffer, a: seq<uint8>, b: seq<uint8>)
    requires ValidLine(s)
    ensures ReceiveAll(s, a + b) == ReceiveAll(ReceiveAll(s, a), b)
    decreases |a|
  {
    if a == [] {
      assert a + b == b;
    } else {
      assert (a + b)[0] == a[0] && (a + b)[1..] == a[1..] + b;
      ReceiveAllAppend(Receive(s, a[0] as int).line, a[1..], b);
    }
  }

  /** Thirty-two typed characters fill the buffer for good: the newline that follows is
      dropped, so `newline_seen` never rises and a reader waiting for it waits forever;
      a backspace is dropped as well, so the line cannot be shortened either. */
  lemma FullLineIsStuck(cs: seq<uint8>)
    requires |cs| == LineCapacity && Printable(cs)
    ensures var s := ReceiveAll(LineBuffer(seq(LineCapacity, _ => 0), 0, false), cs);
      && s.idx == LineCapacity
      && !ReceiveAll(s, [Newline]).newlineSeen
      && ReceiveAll(s, [Backspace]) == s
  {
    var s0 := LineBuffer(seq(LineCapacity, _ => 0), 0, false);
    TypingAppends(s0, cs);
    var s := ReceiveAll(s0, cs);
    FullBufferIgnoresAll(s, [Newline]);
    FullBufferIgnoresAll(s, [Backspace]);
  }

  /** The handler as evidently intended: a typed character is stored only while room for
      the terminator remains, and a newline or backspace is always acted on. */
  function ReceiveIntended(s: LineBuffer, c: int): (r: RxResult)
    requires ValidLine(s) && s.idx < LineCapacity && c < 256
    ensures ValidLine(r.line) && r.line.idx < LineCapacity
    ensures c == Newline as int ==>
      r.line.newlineSeen && Text(r.line) == Text(s) && r.line.buf[s.idx] == 0
    ensures c == Backspace as int && s.idx > 0 ==> Text(r.line) == Text(s)[..s.idx - 1]
    ensures 0 <= c && c != Newline as int && c != Backspace as int ==>
      if s.idx + 1 < LineCapacity then Text(r.line) == Text(s) + [c as uint8]
      else r.line == s
  {
    if c < 0 then RxResult(s, [])
    else if c == Newline as int then
      RxResult(s.(buf := s.buf[s.idx := 0], newlineSeen := true), [Newline])
    else if c == Backspace as int then
      if s.idx > 0 then
        var idx := s.idx - 1;
        RxResult(s.(buf := s.buf[idx := 0], idx := idx), EraseEcho)
      else RxResult(s, [])
    else if s.idx + 1 >= LineCapacity then RxResult(s, [])
    else
      RxResult(s.(buf := s.buf[s.idx := c as uint8], idx := s.idx + 1), [c as uint8])
  }

  /** With the intended handler every line can be ended and every character erased,
      whatever was typed before. */
  lemma IntendedNeverStuck(s: LineBuffer, c: uint8)
    requires ValidLine(s) && s.idx < LineCapacity
    ensures ReceiveIntended(s, Newline as int).line.newlineSeen
    ensures var r := ReceiveIntended(ReceiveIntended(s, c as int).line, Backspace as int).line;
      c != Newline && c != Backspace && s.idx + 1 < LineCapacity ==> Text(r) == Text(s)
  {
    var s1 := ReceiveIntended(s, c as int).line;
    if c != Newline && c != Backspace && s.idx + 1 < LineCapacity {
      assert Text(s1) == Text(s) + [c];
      assert (Text(s) + [c])[..s.idx] == Text(s);
    }
  }

  /** What a STEP4/STEP5 `_read` returns: the new line state, the bytes copied to the
      caller and the return value. */
  datatype LineRead = LineRead(line: LineBuffer, copied: seq<uint8>, ret: int)

  /** STEP4/STEP5 `_read`, as written: once the newline flag is up it is cleared, the
      first min(seridx, length) bytes are copied, seridx returns to 0, and the call
      returns `length`. None: no newline yet, so the call is still waiting. */
  function LineReadAsWritten(s: LineBuffer, length: int): (r: Option<LineRead>)
    requires ValidLine(s)
    ensures r.None? <==> !s.newlineSeen
    ensures r.Some? ==>
      && r.value.line == s.(idx := 0, newlineSeen := false)
      && r.value.copied == Text(s)[..Max(0, Min(s.idx, length))]
      && r.value.ret == length
  {
    if !s.newlineSeen then None
    else
      var toCopy := if s.idx > length then length else s.idx;
      var copied := if toCopy <= 0 then [] else s.buf[..toCopy];
      Some(LineRead(s.(newlineSeen := false, idx := 0), copied, length))
  }

  /** The return value exceeds the bytes copied whenever the line is shorter than the
      request: after "hi" and a newline, a 100-byte read copies 2 bytes and returns 100. */
  lemma LineReadOverstates()
    ensures var s := ReceiveAll(LineBuffer(seq(LineCapacity, _ => 0), 0, false), ['h' as uint8, 'i' as uint8, Newline]);
      var r := LineReadAsWritten(s, 100);
      r.Some? && |r.value.copied| == 2 && r.value.ret == 100
  {
    var s0 := LineBuffer(seq(LineCapacity, _ => 0), 0, false);
    var cs := ['h' as uint8, 'i' as uint8, Newline];
    var s1 := Receive(s0, 'h' as int).line;
    var s2 := Receive(s1, 'i' as int).line;
    var s3 := Receive(s2, Newline as int).line;
    assert ReceiveAll(s0, cs) == ReceiveAll(s1, cs[1..]);
    assert cs[1..][1..] == [Newline];
    assert ReceiveAll(s2, [Newline]) == ReceiveAll(s3, []);
    assert s3.idx == 2 && s3.newlineSeen;
  }

  /** The read as evidently intended: the same effect, returning the number of bytes copied. */
  function LineReadIntended(s: LineBuffer, length: int): (r: Option<LineRead>)
    requires ValidLine(s)
    ensures r.None? <==> !s.newlineSeen
    ensures r.Some? ==> r.value.ret == |r.value.copied| && 0 <= r.value.ret <= Max(0, length) && r.value.ret <= s.idx
    ensures r.Some? ==> Text(s) == r.value.copied + Text(s)[|r.value.copied|..]
  {
    match LineReadAsWritten(s, length)
      case None => None
      case Some(r) => Some(r.(ret := |r.copied|))
  }

  // ---------------------------------------------------------------------------
  // STEP5: the command shell.

  /** `strcspn(input, "\n")`: the input up to its first newline. */
  function CutAtNewline(input: string): (line: string)
    ensures line <= input && '\n' !in line
    ensures |line| < |input| ==> input[|line|] == '\n'
  {
    if input == [] then []
    else if input[0] == '\n' then []
    else [input[0]] + CutAtNewline(input[1..])
  }

  /** The most arguments the shell keeps. */
  const MaxArgs: int := 10

  /** Leading delimiter spaces skipped, as `strtok` does before each token. */
  function SkipSpaces(s: string): (t: string)
    ensures |t| <= |s|
  {
    if s != [] && s[0] == ' ' then SkipSpaces(s[1..]) else s
  }

  /** What `SkipSpaces` removes is spaces, and what it keeps starts with a non-space. */
  lemma {:induction false} SkipSpacesSplits(s: string)
    ensures var t := SkipSpaces(s);
      && s == s[..|s| - |t|] + t
      && (forall i | 0 <= i < |s| - |t| :: s[i] == ' ')
      && (t == [] || t[0] != ' ')
  {
    if s != [] && s[0] == ' ' {
      SkipSpacesSplits(s[1..]);
    }
  }

  /** The token at the start of s: everything up to the next space. */
  function Word(s: string): (w: string)
    ensures |w| <= |s|
    ensures s != [] && s[0] != ' ' ==> |w| >= 1
  {
    if s == [] || s[0] == ' ' then [] else [s[0]] + Word(s[1..])
  }

  /** No character of w is a space. */
  predicate NoSpace(w: string)
  {
    forall i | 0 <= i < |w| :: w[i] != ' '
  }

  /** A token is a prefix of the text and holds no space; it stops at a space or the end. */
  lemma {:induction false} WordSplits(s: string)
    ensures var w := Word(s);
      && w == s[..|w|] && NoSpace(w)
      && (|w| < |s| ==> s[|w|] == ' ')
  {
    if s != [] && s[0] != ' ' {
      var w1 := Word(s[1..]);
      WordSplits(s[1..]);
      assert Word(s) == [s[0]] + w1;
    }
  }

  /** The `strtok(input, " ")` loop: tokens are maximal runs of non-spaces, at most `cap`. */
  function Tokens(s: string, cap: nat): (args: seq<string>)
    ensures |args| <= cap
    decreases |s|
  {
    var t := SkipSpaces(s);
    if t == [] || cap == 0 then []
    else
      SkipSpacesSplits(s);
      var w := Word(t);
      [w] + Tokens(t[|w|..], cap - 1)
  }

  /** Every token is non-empty and free of spaces. */
  lemma {:induction false} TokensAreWords(s: string, cap: nat)
    ensures var args := Tokens(s, cap);
      forall i | 0 <= i < |args| :: args[i] != [] && NoSpace(args[i])
    decreases |s|
  {
    var t := SkipSpaces(s);
    if t != [] && cap > 0 {
      SkipSpacesSplits(s);
      var w := Word(t);
      WordSplits(t);
      TokensAreWords(t[|w|..], cap - 1);
      assert Tokens(s, cap) == [w] + Tokens(t[|w|..], cap - 1);
    }
  }

  function Concat(ws: seq<string>): string
  {
    if ws == [] then [] else ws[0] + Concat(ws[1..])
  }

  /** The characters of s other than spaces. */
  function NonSpaces(s: string): string
  {
    if s == [] then [] else (if s[0] == ' ' then [] else [s[0]]) + NonSpaces(s[1..])
  }

  /** Skipped delimiters contribute nothing. */
  lemma {:induction false} NonSpacesSkip(s: string)
    ensures NonSpaces(s) == NonSpaces(SkipSpaces(s))
  {
    if s != [] && s[0] == ' ' {
      NonSpacesSkip(s[1..]);
    }
  }

  /** A token contributes its own characters, then the rest of the text follows. */
  lemma {:induction false} NonSpacesWord(t: string)
    ensures NonSpaces(t) == Word(t) + NonSpaces(t[|Word(t)|..])
  {
    if t != [] && t[0] != ' ' {
      var w1 := Word(t[1..]);
      NonSpacesWord(t[1..]);
      assert t[1..][|w1|..] == t[|w1| + 1..];
    } else {
      assert t[0..] == t;
    }
  }

  lemma ConcatCons(w: string, ws: seq<string>)
    ensures Concat([w] + ws) == w + Concat(ws)
  {
    assert ([w] + ws)[0] == w && ([w] + ws)[1..] == ws;
  }

  /** One step of the tokenizer: the first token, then the tokens of what follows it. */
  lemma TokensUnfold(s: string, cap: nat)
    requires SkipSpaces(s) != [] && cap > 0
    ensures var t := SkipSpaces(s);
      Tokens(s, cap) == [Word(t)] + Tokens(t[|Word(t)|..], cap - 1)
  {
  }

  /** With room for every token, the tokens hold exactly the non-space characters of the
      line, in order: nothing is lost or invented. */
  lemma {:induction false} TokensKeepEverything(s: string)
    ensures Concat(Tokens(s, |s|)) == NonSpaces(s)
    decreases |s|
  {
    var t := SkipSpaces(s);
    NonSpacesSkip(s);
    if t == [] {
      assert Tokens(s, |s|) == [];
    } else {
      SkipSpacesSplits(s);
      var w := Word(t);
      var rest := t[|w|..];
      TokensUnfold(s, |s|);
      TokensCapIrrelevant(rest, |s| - 1, |rest|);
      TokensKeepEverything(rest);
      ConcatCons(w, Tokens(rest, |rest|));
      NonSpacesWord(t);
    }
  }

  /** The cap only cuts the list: any cap at least the length of the text gives the same list. */
  lemma {:induction false} TokensCapIrrelevant(s: string, a: nat, b: nat)
    requires a >= |s| && b >= |s|
    ensures Tokens(s, a) == Tokens(s, b)
    decreases |s|
  {
    var t := SkipSpaces(s);
    if t != [] {
      SkipSpacesSplits(s);
      var w := Word(t);
      TokensCapIrrelevant(t[|w|..], a - 1, b - 1);
    }
  }

  /** The shell keeps a prefix of the full token list: the first `cap` tokens. */
  lemma {:induction false} TokensArePrefix(s: string, cap: nat)
    ensures Tokens(s, cap) <= Tokens(s, |s|)
    decreases |s|
  {
    var t := SkipSpaces(s);
    if t != [] && cap > 0 {
      SkipSpacesSplits(s);
      var w := Word(t);
      TokensArePrefix(t[|w|..], cap - 1);
      TokensCapIrrelevant(t[|w|..], |s| - 1, |t[|w|..]|);
    }
  }

  /** Words written out with one space between each pair: the line a user types. */
  function Join(ws: seq<string>): string
  {
    if ws == [] then [] else if |ws| == 1 then ws[0] else ws[0] + " " + Join(ws[1..])
  }

  /** A non-empty word followed by a space or the end is read as exactly that word. */
  lemma {:induction false} WordOfWord(w: string, rest: string)
    requires NoSpace(w) && (rest == [] || rest[0] == ' ')
    ensures Word(w + rest) == w
    decreases |w|
  {
    if w == [] {
      assert w + rest == rest;
    } else {
      assert (w + rest)[1..] == w[1..] + rest;
      WordOfWord(w[1..], rest);
    }
  }

  /** A leading space is a delimiter and changes no token. */
  lemma SpaceThenTokens(x: string, cap: nat)
    ensures Tokens(" " + x, cap) == Tokens(x, cap)
  {
    assert (" " + x)[1..] == x;
    assert SkipSpaces(" " + x) == SkipSpaces(x);
  }

  /** A word that starts the text and ends at a space or the end is the first token. */
  lemma WordThenTokens(w: string, tail: string, cap: nat)
    requires w != [] && NoSpace(w) && (tail == [] || tail[0] == ' ') && cap > 0
    ensures Tokens(w + tail, cap) == [w] + Tokens(tail, cap - 1)
  {
    var s := w + tail;
    assert s[0] == w[0];
    assert SkipSpaces(s) == s;
    WordOfWord(w, tail);
    assert s[|w|..] == tail;
    TokensUnfold(s, cap);
  }

  /** The joined line splits into the first word and the rest after a space. */
  lemma JoinCons(ws: seq<string>)
    requires |ws| >= 2
    ensures Join(ws) == ws[0] + (" " + Join(ws[1..]))
  {
  }

  /** One word more: if the tail's words come back, so does the whole list. */
  lemma TokensOfJoinStep(ws: seq<string>)
    requires |ws| >= 2 && ws[0] != [] && NoSpace(ws[0])
    requires Tokens(Join(ws[1..]), |Join(ws[1..])|) == ws[1..]
    ensures Tokens(Join(ws), |Join(ws)|) == ws
  {
    var w, more := ws[0], ws[1..];
    var rest := Join(more);
    var n := |Join(ws)|;
    JoinCons(ws);
    assert n == |w| + 1 + |rest|;
    WordThenTokens(w, " " + rest, n);
    SpaceThenTokens(rest, n - 1);
    TokensCapIrrelevant(rest, n - 1, |rest|);
    calc {
      Tokens(Join(ws), n);
      Tokens(w + (" " + rest), n);
      [w] + Tokens(" " + rest, n - 1);
      [w] + more;
      ws;
    }
  }

  /** Tokenizing words joined by single spaces gives back those words: tokens split
      exactly at the spaces. */
  lemma {:induction false} TokensOfJoin(ws: seq<string>)
    requires forall i | 0 <= i < |ws| :: ws[i] != [] && NoSpace(ws[i])
    ensures Tokens(Join(ws), |Join(ws)|) == ws
    decreases |ws|
  {
    if ws == [] {
      assert SkipSpaces(Join(ws)) == [];
    } else if |ws| == 1 {
      assert Join(ws) == ws[0] + [];
      WordThenTokens(ws[0], [], |Join(ws)|);
      assert Tokens([], |Join(ws)| - 1) == [];
    } else {
      TokensOfJoin(ws[1..]);
      TokensOfJoinStep(ws);
    }
  }

  /** `atoi`: leading white space, an optional sign, then decimal digits up to the first
      other character. Out-of-range values are left out. */
  function Atoi(s: string): int
  {
    var t := SkipWhite(s);
    if t != [] && t[0] == '-' then -DigitsValue(t[1..], 0)
    else if t != [] && t[0] == '+' then DigitsValue(t[1..], 0)
    else DigitsValue(t, 0)
  }

  function SkipWhite(s: string): string
  {
    if s != [] && (s[0] == ' ' || '\t' <= s[0] <= '\r') then SkipWhite(s[1..]) else s
  }

  /** The value of the leading digits of s, accumulated onto acc. */
  function DigitsValue(s: string, acc: int): int
  {
    if s == [] || !('0' <= s[0] <= '9') then acc
    else DigitsValue(s[1..], acc * 10 + (s[0] as int - '0' as int))
  }

  /** The number of pins the `gpio` command accepts. */
  const PinCount: int := 48

  /** A pin: whether `gpio out` made it an output, and the level last written. */
  datatype Pin = Pin(output: bool, level: int)

  /** `gpio_out_init` together with the pins' levels. */
  datatype Pins = Pins(pins: seq<Pin>)

  predicate ValidPins(p: Pins)
  {
    |p.pins| == PinCount
  }

  /** What `cmd_gpio` prints, without the wording. */
  datatype GpioReply =
    | Usage | UsageOut | UsageSet
    | InvalidPin(pin: int) | NotOutput(pin: int) | InvalidValue(value: int)
    | Initialized(pin: int) | SetPin(pin: int, value: int)
    | UnknownCommand(word: string)

  datatype GpioResult = GpioResult(pins: Pins, reply: GpioReply)

  /** `gpio out` is allowed: three arguments and a pin in 0..47. */
  predicate OutAllowed(args: seq<string>)
  {
    |args| == 3 && args[1] == "out" && 0 <= Atoi(args[2]) < PinCount
  }

  /** `gpio set` is allowed: four arguments, a pin in 0..47 made an output before, value 0 or 1. */
  predicate SetAllowed(p: Pins, args: seq<string>)
    requires ValidPins(p)
  {
    && |args| == 4 && args[1] == "set"
    && 0 <= Atoi(args[2]) < PinCount && p.pins[Atoi(args[2])].output
    && (Atoi(args[3]) == 0 || Atoi(args[3]) == 1)
  }

  /** `cmd_gpio`. The pins change only through an allowed `out` (the pin becomes an
      output driven low, as `gpio_init` leaves it) or an allowed `set` (the pin's level
      becomes the value); anything else only prints a message. */
  function CmdGpio(p: Pins, args: seq<string>): (r: GpioResult)
    requires ValidPins(p) && |args| >= 1
    ensures ValidPins(r.pins)
    ensures !OutAllowed(args) && !SetAllowed(p, args) ==> r.pins == p
    ensures OutAllowed(args) ==>
      r.pins.pins == p.pins[Atoi(args[2]) := Pin(true, 0)] && r.reply == Initialized(Atoi(args[2]))
    ensures SetAllowed(p, args) ==>
      && r.pins.pins == p.pins[Atoi(args[2]) := Pin(true, Atoi(args[3]))]
      && r.reply == SetPin(Atoi(args[2]), Atoi(args[3]))
    ensures r.reply.Initialized? <==> OutAllowed(args)
    ensures r.reply.SetPin? <==> SetAllowed(p, args)
  {
    if |args| < 2 then GpioResult(p, Usage)
    else if args[1] == "out" then
      if |args| != 3 then GpioResult(p, UsageOut)
      else
        var pin := Atoi(args[2]);
        if pin < 0 || pin > 47 then GpioResult(p, InvalidPin(pin))
        else GpioResult(Pins(p.pins[pin := Pin(true, 0)]), Initialized(pin))
    else if args[1] == "set" then
      if |args| != 4 then GpioResult(p, UsageSet)
      else
        var pin := Atoi(args[2]);
        if pin < 0 || pin > 47 then GpioResult(p, InvalidPin(pin))
        else if !p.pins[pin].output then GpioResult(p, NotOutput(pin))
        else
          var val := Atoi(args[3]);
          if !(val == 0 || val == 1) then GpioResult(p, InvalidValue(val))
          else GpioResult(Pins(p.pins[pin := p.pins[pin].(level := val)]), SetPin(pin, val))
    else GpioResult(p, UnknownCommand(args[1]))
  }

  /** `gpio set` works only on a pin `gpio out` has prepared: from the power-on table,
      no `set` succeeds until an `out` names its pin. */
  lemma SetNeedsOut(args: seq<string>)
    requires |args| >= 1
    ensures !SetAllowed(Pins(seq(PinCount, _ => Pin(false, 0))), args)
  {
  }

  /** What one shell line did. */
  datatype ShellResult = Ignored | NotGpio(word: string) | Gpio(result: GpioResult)

  /** One pass of the STEP5 shell loop on a line read by `fgets`: the line is cut at its
      newline and split into at most ten tokens; an empty line is skipped, `gpio` goes
      to `cmd_gpio` and any other command is reported unknown. */
  function ShellLine(p: Pins, input: string): (r: ShellResult)
    requires ValidPins(p)
    ensures var args := Tokens(CutAtNewline(input), MaxArgs);
      && (r.Ignored? <==> args == [])
      && (r.Gpio? <==> args != [] && args[0] == "gpio")
      && (r.Gpio? ==> r.result == CmdGpio(p, args))
  {
    var args := Tokens(CutAtNewline(input), MaxArgs);
    if |args| == 0 then Ignored
    else if args[0] == "gpio" then Gpio(CmdGpio(p, args))
    else NotGpio(args[0])
  }
}
